=== FILE: README.md ===
# GiftTracker product scraper, modelled in Dafny

GiftTracker lets a user paste a retailer URL and fills in the product's
name, image and price. It does this with a scraper (`app/scraper.py`). The
scraper fetches the page and runs a cascade of strategies over it:

1. the first JSON-LD block;
2. generic heuristics: `<h1>` or `<title>` for the name, `og:image` for the image;
3. a step chosen by store. Target pages search their inline scripts for an
   escaped `current_retail` price. Walmart pages walk the `__NEXT_DATA__`
   state blob. Amazon pages and unrecognised stores compute a few values
   that are then discarded.

The final record is returned only when some field is truthy.

This project models that cascade as pure functions over an abstract page
and proves what each step does to the record:

- `wrappers.dfy` holds `Option`.
- `pyvalue.dfy` holds the Python values the scraper handles: parsed JSON,
  the exceptions that can escape, `Result`, truthiness, and `dict.get` /
  `[]` / `[0]` with their error cases.
- `pystr.dfy` holds the `str` methods used: `startswith`, `split`,
  `strip`, ASCII `lower`, `find`, `replace`.
- `record.dfy` holds the product record and `set_product`.
- `urlparse.dfy` holds the `netloc` part of `urllib.parse.urlparse`.
- `store.dfy` holds `get_store`.
- `patterns.dfy` holds `shorten_name`, the Target price regex with
  `float()`, and the Amazon image regex after `html.unescape`.
- `scraper.dfy` holds the page, each strategy, and `scrape_product`.
- `properties.dfy` holds lemmas that span several steps.

A Python exception is `Raised(e)` in `Result`. `scrape_product`'s `None`
is `Ok(None)`. A float that `float()` produced is kept as the lexeme it
was parsed from, so its truthiness is "has a nonzero digit". That agrees
with Python except where the text underflows to 0.0 (see "## Left out").

Behaviour as written, which the model follows:

- **Walmart page without `__NEXT_DATA__` raises.** `scrape_walmart`
  returns `None` early here, and its comment ("Bot blocked or unusual
  page", `app/scraper.py:129`) shows this was meant as "no contribution".
  But `scrape_product` then calls `.get` on that `None`
  (`app/scraper.py:219`), which raises AttributeError. The same happens
  whenever the `try` in `scrape_walmart` swallows an error. The model
  follows the code (`ScraperProperties.WalmartBlockedPageRaises`).
- **Walmart state blob that is not JSON raises.** Its `json.loads` sits
  outside the `try`, so the decoding error escapes.
- **Some JSON-LD errors escape.** An empty JSON-LD list raises IndexError.
  A non-dict item, or a name that is not a str, raises AttributeError.
  Neither is in the `except` list, so both escape `scrape_product`.
- **Target's `float()` can raise.** It raises ValueError on a capture such
  as `.` or `1.2.3`, which the price pattern accepts.
- **Amazon's and the fallback branch's values are never stored.** The
  values those branches compute go to locals and never reach the record.
- **An empty name is stored but reported as nothing found.** A tag that
  shortens to `""` still sets the name to `""`, because `set_product` tests for `None`, not
  for truthiness. `any(...)` then reports nothing found.

## Model

| member | source | states |
|---|---|---|
| Record.SetProduct | app/scraper.py:26-32 | each field is replaced exactly when its argument is not None and is otherwise kept |
| Record.SetProductTwice | app/scraper.py:26-32 | two calls in a row equal one call whose arguments are the later ones where given, the earlier ones elsewhere |
| Record.SetProductIdempotent | app/scraper.py:26-32 | repeating a call leaves the record as the first call did |
| Record.SetProductKeeps | app/scraper.py:26-32 | set_product never clears a field that was set |
| PyStr.Split | app/scraper.py:36 | `split` with one separator: at least one piece, no piece holds the separator, joining the pieces with it gives the text back, the first piece ends at the first separator |
| Patterns.ShortenName | app/scraper.py:34-36 | the result is a comma-free prefix of the text that ends at the text's end or at its first comma |
| Patterns.ShortenNameWithoutComma | app/scraper.py:34-36 | text without a comma is returned unchanged |
| Patterns.ShortenNameIdempotent | app/scraper.py:34-36 | shortening twice equals shortening once |
| Patterns.ShortenNameDropsSuffix | app/scraper.py:34-36 | for a comma-free head, `head + "," + tail` shortens to `head`, whatever the tail holds |
| Patterns.PyShortenName | app/scraper.py:34-36 | on a Python value it raises AttributeError exactly when the value is not a str, and otherwise returns `shorten_name` of the str |
| PyStr.Strip | app/scraper.py:92 | `strip()`: the result sits in the input with only whitespace around it, and does not start or end with whitespace |
| PyStr.Lower | app/scraper.py:43 | `lower()` keeps the length and lower-cases each ASCII letter in place |
| PyStr.RemoveChar | app/scraper.py:228 | `replace("$", "")`: the result holds no `$`, and text without one is unchanged |
| PyStr.RemoveCharAppend | app/scraper.py:228 | removal distributes over concatenation, which with RemoveCharSingle fixes the result on every text |
| PyStr.RemoveCharSingle | app/scraper.py:228 | one character is dropped exactly when it is the removed one |
| UrlParse.Netloc | app/scraper.py:43 | the netloc holds no '/', '?' or '#' |
| UrlParse.NetlocOfBuiltUrl | app/scraper.py:43 | the netloc of `scheme://host` followed by a path, query or fragment is `host` |
| Store.StoreOfHost | app/scraper.py:45-56 | each store is returned exactly when its name is the host's first label, or the first label after one leading "www." |
| Store.GetStore | app/scraper.py:42-56 | a known store is returned only when the lower-cased netloc names it; None (Unknown) exactly when the netloc names none of the three |
| Store.DoubleWwwIsUnknown | app/scraper.py:45-47 | only one "www." is dropped, so "www.www.amazon.com" is no store |
| Store.SubdomainIsUnknown | app/scraper.py:49-56 | a sub-domain host such as "smile.amazon.co.uk" is no store |
| Store.StoreOfBuiltUrl | app/scraper.py:42-56 | `get_store` of a URL built from a host is the store its lower-cased host names |
| Store.AmazonProductUrl | app/scraper.py:42-56 | an Amazon product URL with an upper-case host is recognised as Amazon |
| Scraper.StructuredFields | app/scraper.py:66-75 | IndexError exactly for an empty list; a list is read through its first item, and a nested list raises AttributeError; a non-dict item or a name that is not a str raises AttributeError; a dict with a str name yields the shortened name, `get("image")` and the offer price |
| Scraper.OfferPrice | app/scraper.py:73-75 | a price other than None is the one at `offers.price`, and whenever that path exists through dicts its value is the price |
| Scraper.StructuredData | app/scraper.py:62-85 | a missing or undecodable block changes nothing; an error reading the fields escapes unchanged; when name, image or price is truthy the three go through set_product, and otherwise the record is kept; both directions are stated |
| ScraperProperties.StructuredDataFillsAll | app/scraper.py:62-96 | a JSON-LD item with a str name, a truthy image and a dict offer with a price fills all three fields, and the generic step leaves them alone |
| ScraperProperties.StructuredDataEmptyListRaises | app/scraper.py:68-69 | an empty JSON-LD list makes the whole scrape raise IndexError |
| ScraperProperties.StructuredDataNameNotStrRaises | app/scraper.py:71 | a JSON-LD item whose name is missing or not a str makes the whole scrape raise AttributeError |
| ScraperProperties.StructuredDataListUsesFirst | app/scraper.py:68-69 | a JSON-LD list whose first item is not a list acts as that item alone |
| ScraperProperties.StructuredDataNameOnly | app/scraper.py:77-82 | an item with only a non-empty name sets the name and leaves image and price as they were |
| Scraper.GeneralizedScrapeAttempt | app/scraper.py:88-96 | price is untouched and set fields are never overwritten; an unset name comes from the stripped, shortened h1, else title; an unset image comes from a non-empty og:image |
| Scraper.NameTagText | app/scraper.py:90 | the h1 when there is one, even with empty text; otherwise the title, or nothing when neither exists |
| ScraperProperties.HeuristicsFillNameAndImage | app/scraper.py:88-96 | without JSON-LD, the heading gives the name and og:image gives the image |
| Patterns.TargetPriceLexeme | app/scraper.py:104 | no capture exactly when the pattern matches nowhere; otherwise the capture is the maximal digit/dot run after the leftmost marker |
| Patterns.PriceRun | app/scraper.py:104 | the greedy `[\d\.]+`: a prefix of digits and dots that stops at the end or at the first other character |
| Patterns.FindTargetMatch | app/scraper.py:104 | the `re.search` scan: the first position from a start where the pattern matches, or none from there on |
| Patterns.LeftmostCaptureUnique | app/scraper.py:104 | the pattern has one leftmost match and one capture |
| Patterns.ExtractTargetPriceFromScript | app/scraper.py:103-107 | None exactly when nothing matches; a float of the leftmost capture when `float()` accepts it; ValueError otherwise |
| Patterns.TargetPriceAfterMarker | app/scraper.py:103-107 | a script made of the marker then a well-formed number yields that number |
| Scraper.ScrapeTarget | app/scraper.py:109-120 | name and image stay as they were, no field is cleared, and only ValueError can escape |
| ScraperProperties.TargetNoMatch | app/scraper.py:115-120 | with no price set and no matching script, the record is unchanged |
| ScraperProperties.TargetFirstMatch | app/scraper.py:115-120 | with no price set, the first matching script decides the price, and later scripts are ignored |
| ScraperProperties.TargetPriceAlreadySet | app/scraper.py:115-120 | with a price already set, only the first script is read: its match, if any, replaces the price, and a ValueError from its `float()` escapes |
| Scraper.ScrapeWalmart | app/scraper.py:124-144 | no script returns None and leaves the record; undecodable JSON raises; on parsed JSON it returns the walk's fields when the walk succeeds and None when it raises, and the record is set_product of the returned fields |
| Scraper.WalmartProduct | app/scraper.py:134-135 | when the fixed key path exists the result is the reading of the product there, and only then can it succeed; a missing path raises KeyError or TypeError |
| Scraper.SubscriptPath | app/scraper.py:134 | chained `[]` succeeds exactly when every key is present in a dict along the path, returns the value there, and otherwise raises KeyError or TypeError |
| Scraper.ProductFields | app/scraper.py:135 | a non-dict product raises AttributeError; a dict product raises exactly when a present `priceInfo`, `currentPrice` inside it, or `imageInfo` is not a dict; otherwise the name is `get("name")` and the price and image are the values at their paths, None where a path is missing |
| Scraper.WalmartBranch | app/scraper.py:217-222 | a missing blob, a walk error swallowed inside `scrape_walmart`, or a name that is not a str each raise AttributeError; undecodable JSON raises its decoding error; otherwise the record is set_product of the three values |
| ScraperProperties.WalmartFillsRecord | app/scraper.py:131-135 | for any blob whose product path holds a readable dict with a str name, the name is overwritten and so are the price and image wherever the blob gives one that is not None |
| ScraperProperties.WalmartNameNotStrRaises | app/scraper.py:219-220 | for any blob whose product at the path is a dict without a str name, the branch raises AttributeError |
| ScraperProperties.WalmartMinimalState | app/scraper.py:134-135 | a worked example: the blob holding only the keys on the path is read back |
| ScraperProperties.WalmartBlockedPageRaises | app/scraper.py:126-129 | a Walmart page without the state blob makes the whole scrape raise AttributeError |
| Patterns.UnescapeEscapeQuotes | app/scraper.py:155 | unescaping undoes the attribute's `&quot;` escaping of quotes |
| Patterns.Unescape | app/scraper.py:155 | `html.unescape` for the quote entity; its behaviour is stated by UnescapeEntity, UnescapeOtherAmp, UnescapePlainHead, UnescapePlainPrefix and UnescapeEscapeQuotes, which together give its result on every non-empty text by its first character |
| Patterns.UnescapeEntity | app/scraper.py:155 | a leading `&quot;` becomes one `"` and the rest is unescaped |
| Patterns.UnescapeOtherAmp | app/scraper.py:155 | a '&' that does not start `&quot;` (as in `&amp;`, or a lone '&') is copied unchanged |
| Patterns.UnescapePlainHead | app/scraper.py:155 | a leading character other than '&' is copied unchanged |
| Patterns.UnescapePlainPrefix | app/scraper.py:155 | text without '&' passes through unescaping unchanged, whatever follows it |
| Patterns.UrlAt | app/scraper.py:158 | a capture at a position is a quoted media URL there; no capture means no quoted media URL starts there |
| Patterns.FindUrl | app/scraper.py:158 | the result is the leftmost quoted media URL from a position on, or there is none |
| Patterns.LeftmostUrlUnique | app/scraper.py:158-160 | the image pattern has one leftmost match |
| Patterns.ExtractAmazonImage | app/scraper.py:151-162 | None for a missing or empty attribute; otherwise the leftmost quoted media URL of the unescaped text, which starts with the media host and holds no quote, or None when there is none |
| Patterns.AmazonImageFirstKey | app/scraper.py:151-162 | an escaped map whose first key is a media URL yields that URL |
| Patterns.LeftmostUrlExtracted | app/scraper.py:151-162 | whenever the unescaped attribute has its leftmost match at some position, that match's URL is the one extracted |
| Scraper.AmazonLocals | app/scraper.py:166-235 | the price is the offscreen text with every '$' removed (an empty text is kept); the name is present exactly when the title is, and is its strip; the image is present exactly when the landing image is, and is the extraction from its attribute |
| Scraper.GenericPriceLocal | app/scraper.py:236-238 | absent exactly when there is no price element; otherwise the strip of its text |
| Scraper.StoreStep | app/scraper.py:214-238 | Target runs the script search and Walmart the `scrape_walmart` branch; Amazon and unknown stores leave the record as it is; Target keeps name and image; no store clears a field; only Target raises ValueError, and only Walmart raises AttributeError or a decoding error |
| ScraperProperties.AmazonAndUnknownKeepGenericRecord | app/scraper.py:223-238 | for Amazon and unrecognised stores, the result is the record left by the JSON-LD and generic steps |
| ScraperProperties.AmazonAndUnknownIgnoreStoreParts | app/scraper.py:223-238 | for those stores, pages that agree on JSON-LD, heading, title and og:image scrape alike |
| Scraper.ScrapeProduct | app/scraper.py:192-246 | a failed fetch gives None; a record is returned only when some field is truthy, and it is the cascade's record; None after fetching means the cascade ended with nothing truthy; an error escapes exactly when the cascade raised, and it is the cascade's error |
| Scraper.Cascade | app/scraper.py:204-238 | a JSON-LD error escapes unchanged; only AttributeError, IndexError, ValueError (Target only) or a decoding error (Walmart only) can escape; on success every field the JSON-LD step set is still set |
| ScraperProperties.CascadeTarget | app/scraper.py:204-216 | for a Target URL, with no price after JSON-LD and the generic step, the first matching script sets the price on the generic step's record, or ValueError escapes |
| ScraperProperties.CascadeTargetNoMatch | app/scraper.py:204-216 | for a Target URL where no script matches and no price was found, the result is the generic step's record |
| ScraperProperties.CascadeWalmart | app/scraper.py:204-222 | for a Walmart URL whose blob holds a readable product with a str name, the result is set_product of the generic step's record with that name, image and price |
| ScraperProperties.CascadeTargetPriceSet | app/scraper.py:204-216 | for a Target URL whose JSON-LD set a price, the script search still runs on the generic step's record: the first script's match replaces the price, or ValueError escapes |
| ScraperProperties.CascadeWalmartRaises | app/scraper.py:204-222 | for a Walmart URL, an undecodable blob raises its decoding error through the cascade, and a swallowed walk error or a name that is not a str raises AttributeError |
| ScraperProperties.EmptyNameIsNothingFound | app/scraper.py:240-241 | a page whose only find is a heading that shortens to "" gives None |
| Record.AnyTruthy | app/scraper.py:240 | `any(self.product.values())`: some field holds a truthy value |

## Left out

- HTTP: `requests.get` with its headers and timeout is not modelled. `scrape_product` takes the fetched page or `None` (a request error) as input.
- HTML parsing: BeautifulSoup is not modelled. The page is an abstract record of the elements the scraper looks up, each already found or absent. The JSON-LD part, the state-blob part and the list of script texts are independent fields, and nothing ties them to one document.
- JSON decoding: `json.loads` is not modelled. A block is either parsed JSON or undecodable.
- Scraper.ScrapeWalmart: a `__NEXT_DATA__` script with no text makes `json.loads(None)` raise TypeError. The model raises JsonDecodeError for both an empty and an undecodable blob, because the two are one page case.
- Scraper.ScrapeProduct: models the first call on a fresh scraper; its cascade starts from the empty record. `self.product` is set only in the constructor (`app/scraper.py:20-24`), and `scrape_product` never resets it. So a second call on the same instance starts from the previous record, and this model does not cover that.
- `print` calls and the dictionaries returned only to be printed or discarded are not modelled.
- Patterns.Unescape: decodes only `&quot;`. `html.unescape` knows every HTML entity, but only the quote entity appears in the dynamic-image attribute. It carries no contract of its own. The lemmas UnescapeEntity, UnescapeOtherAmp and UnescapePlainHead give its result for every first character; UnescapePlainPrefix and UnescapeEscapeQuotes follow from them.
- Patterns.ExtractTargetPriceFromScript: `float()` results are kept as the accepted lexeme. Rounding to a double, underflow to 0.0 and overflow to `inf` are not modelled. So a lexeme such as "0." followed by 400 zeros and a "1" is truthy in the model, but Python reads it as 0.0, which is falsy.
- PyStr.Lower: ASCII only. Python's `lower` also maps non-ASCII letters.
- Patterns.IsDigit: ASCII only. Python's `\d` also matches other Unicode digits.
- UrlParse.Netloc: keeps characters that `urlsplit` removes, so its result can differ from Python's. `urlsplit` deletes tab, CR and LF anywhere in the URL, and strips leading C0 controls and spaces. For example, the model reads `https://ama\tzon.com/` as no store, while Python reads it as Amazon. It also does not raise ValueError on an unbalanced IPv6 bracket or on an NFKC-unsafe netloc.
- The constructor's header dictionary, the Django views, models and forms, and the front-end scripts are not part of this model.

=== FILE: patterns.dfy ===
/**
 * The scraper's text helpers: `shorten_name`, the Target price pattern in
 * `extract_target_price_from_script`, and the Amazon image pattern in
 * `extract_amazon_image_from_dynamic_image_attr`.
 */
module Patterns {
  import opened Wrappers
  import opened PyStr
  import opened PyValue

  // ---------------------------------------------------------------- shorten_name

  /**
   * `shorten_name(text)` on a str, i.e. `text.split(",")[0]`: the longest
   * comma-free prefix of `text`, ending where the first comma stands.
   */
  function ShortenName(text: string): (r: string)
    ensures ',' !in r
    ensures StartsWith(text, r)
    ensures |r| == |text| || text[|r|] == ','
  {
    Split(text, ',')[0]
  }

  /** Text without a comma is returned unchanged. */
  lemma ShortenNameWithoutComma(text: string)
    requires ',' !in text
    ensures ShortenName(text) == text
  {
    SplitWithoutSeparator(text, ',');
  }

  /** Shortening a shortened name changes nothing. */
  lemma ShortenNameIdempotent(text: string)
    ensures ShortenName(ShortenName(text)) == ShortenName(text)
  {
    ShortenNameWithoutComma(ShortenName(text));
  }

  /** Whatever follows the first comma is dropped, whatever it holds. */
  lemma ShortenNameDropsSuffix(head: string, tail: string)
    requires ',' !in head
    ensures ShortenName(head + "," + tail) == head
  {
    SplitAfterSeparator(head, tail, ',');
  }

  lemma {:induction false} SplitAfterSeparator(head: string, tail: string, sep: char)
    requires sep !in head
    ensures Split(head + [sep] + tail, sep)[0] == head
    decreases |head|
  {
    var s := head + [sep] + tail;
    if |head| == 0 {
      assert s == [sep] + tail;
      assert s[1..] == tail;
    } else {
      assert s[0] == head[0];
      assert s[1..] == head[1..] + [sep] + tail;
      SplitAfterSeparator(head[1..], tail, sep);
      assert head == [head[0]] + head[1..];
    }
  }

  /** A comma-separated product name keeps only its first part. */
  lemma ShortenNameExample()
    ensures ShortenName("Widget, Blue, Large") == "Widget"
  {
    assert "Widget, Blue, Large" == "Widget" + "," + " Blue, Large";
    ShortenNameDropsSuffix("Widget", " Blue, Large");
  }

  /**
   * `shorten_name` on an arbitrary Python value: only a str has `split`, so
   * anything else, `None` included, raises AttributeError.
   */
  function PyShortenName(j: Json): (r: Result<string>)
    ensures r.Raised? <==> !j.Str?
    ensures r.Raised? ==> r.error == AttributeError
    ensures r.Ok? ==> r.value == ShortenName(j.s)
  {
    match j
    case Str(s) => Ok(ShortenName(s))
    case _ => Raised(AttributeError)
  }

  // ---------------------------------------------------------------- Target price

  /** The escaped JSON fragment `\"price\":{\"current_retail\":` as it appears inside a script. */
  const TargetMarker: string := "\\\"price\\\":{\\\"current_retail\\\":"

  predicate IsDigit(c: char) {
    '0' <= c <= '9'
  }

  /** A character of the class `[\d\.]`. */
  predicate IsPriceChar(c: char) {
    IsDigit(c) || c == '.'
  }

  /** The pattern matches at `k`: the marker stands there and a digit or '.' follows it. */
  predicate TargetMatchAt(s: string, k: int) {
    0 <= k && k + |TargetMarker| < |s| && s[k..k + |TargetMarker|] == TargetMarker
    && IsPriceChar(s[k + |TargetMarker|])
  }

  /** `d` is all digits and dots and is not empty. */
  predicate IsPriceRun(d: string) {
    |d| > 0 && forall i :: 0 <= i < |d| ==> IsPriceChar(d[i])
  }

  /**
   * `d` is what the pattern's group captures when the leftmost match is at `k`:
   * the maximal run of digits and dots right after the marker.
   */
  predicate LeftmostCapture(s: string, k: int, d: string) {
    && TargetMatchAt(s, k)
    && (forall j :: 0 <= j < k ==> !TargetMatchAt(s, j))
    && IsPriceRun(d)
    && StartsWith(s[k + |TargetMarker|..], d)
    && (k + |TargetMarker| + |d| == |s| || !IsPriceChar(s[k + |TargetMarker| + |d|]))
  }

  /** The longest prefix of `s` made of digits and dots (the greedy `[\d\.]+`). */
  function PriceRun(s: string): (r: string)
    ensures StartsWith(s, r)
    ensures forall i :: 0 <= i < |r| ==> IsPriceChar(r[i])
    ensures |r| == |s| || !IsPriceChar(s[|r|])
    decreases |s|
  {
    if |s| == 0 || !IsPriceChar(s[0]) then ""
    else [s[0]] + PriceRun(s[1..])
  }

  /** The leftmost position at or after `from` where the pattern matches. */
  function FindTargetMatch(s: string, from: nat): (r: Option<nat>)
    requires from <= |s|
    ensures r.Some? ==> from <= r.value && TargetMatchAt(s, r.value)
    ensures r.Some? ==> forall k :: from <= k < r.value ==> !TargetMatchAt(s, k)
    ensures r.None? ==> forall k :: from <= k < |s| ==> !TargetMatchAt(s, k)
    decreases |s| - from
  {
    if from == |s| then None
    else if TargetMatchAt(s, from) then Some(from)
    else FindTargetMatch(s, from + 1)
  }

  /**
   * `re.search(...)` followed by `match.group(1)`: `None` exactly when the
   * pattern matches nowhere, and otherwise the capture of the leftmost match.
   */
  function TargetPriceLexeme(s: string): (r: Option<string>)
    ensures r.None? <==> forall k :: 0 <= k < |s| ==> !TargetMatchAt(s, k)
    ensures r.Some? ==> exists k :: LeftmostCapture(s, k, r.value)
  {
    match FindTargetMatch(s, 0)
    case None => None
    case Some(k) =>
      var start := k + |TargetMarker|;
      var d := PriceRun(s[start..]);
      assert s[start..][0] == s[start];
      assert |d| > 0;
      assert LeftmostCapture(s, k, d);
      Some(d)
  }

  /** A maximal run of digits and dots at the start of `s` is the one `PriceRun` takes. */
  lemma {:induction false} MaximalRunIsPriceRun(s: string, d: string)
    requires StartsWith(s, d)
    requires forall i :: 0 <= i < |d| ==> IsPriceChar(d[i])
    requires |d| == |s| || !IsPriceChar(s[|d|])
    ensures PriceRun(s) == d
    decreases |s|
  {
    if |d| > 0 {
      assert s[0] == d[0];
      assert s[1..][..|d| - 1] == d[1..];
      MaximalRunIsPriceRun(s[1..], d[1..]);
      assert d == [d[0]] + d[1..];
    }
  }

  /** The capture of the leftmost match is determined by the text. */
  lemma LeftmostCaptureUnique(s: string, k1: int, d1: string, k2: int, d2: string)
    requires LeftmostCapture(s, k1, d1) && LeftmostCapture(s, k2, d2)
    ensures k1 == k2 && d1 == d2
  {
    assert k1 == k2;
    var rest := s[k1 + |TargetMarker|..];
    MaximalRunIsPriceRun(rest, d1);
    MaximalRunIsPriceRun(rest, d2);
  }

  /**
   * Python's `float()` accepts a run of digits and dots exactly when it holds
   * at most one dot and at least one digit ("1.", ".5" and "12" are accepted,
   * "." and "1.2.3" are not).
   */
  predicate IsFloatLiteral(d: string) {
    && (forall i, j :: 0 <= i < j < |d| && d[i] == '.' ==> d[j] != '.')
    && (exists i :: 0 <= i < |d| && IsDigit(d[i]))
  }

  /**
   * `extract_target_price_from_script(script_text)`: `None` when the pattern
   * matches nowhere; the float of the leftmost capture when `float()` accepts
   * it; and the ValueError `float()` raises, which nothing catches, otherwise.
   */
  function ExtractTargetPriceFromScript(s: string): (r: Result<Option<Value>>)
    ensures r == Ok(None) <==> forall k :: 0 <= k < |s| ==> !TargetMatchAt(s, k)
    ensures r.Raised? ==> r.error == ValueError
    ensures r.Raised? ==> exists k, d :: LeftmostCapture(s, k, d) && !IsFloatLiteral(d)
    ensures r.Ok? && r.value.Some? ==>
      r.value.value.Float? && IsFloatLiteral(r.value.value.lexeme)
      && exists k :: LeftmostCapture(s, k, r.value.value.lexeme)
  {
    match TargetPriceLexeme(s)
    case None => Ok(None)
    case Some(d) => if IsFloatLiteral(d) then Ok(Some(Float(d))) else Raised(ValueError)
  }

  /**
   * A script that starts with the marker followed by a well-formed number
   * yields exactly that number.
   */
  lemma TargetPriceAfterMarker(d: string, tail: string)
    requires IsPriceRun(d) && IsFloatLiteral(d)
    requires tail == [] || !IsPriceChar(tail[0])
    ensures ExtractTargetPriceFromScript(TargetMarker + d + tail) == Ok(Some(Float(d)))
  {
    var s := TargetMarker + d + tail;
    var m := |TargetMarker|;
    assert s[..m] == TargetMarker;
    assert s[m] == d[0];
    assert TargetMatchAt(s, 0);
    assert FindTargetMatch(s, 0) == Some(0);
    assert s[m..] == d + tail;
    MaximalRunIsPriceRun(s[m..], d);
  }

  /** A script holding `\"price\":{\"current_retail\":19.99}` yields the price 19.99. */
  lemma TargetPriceExample()
    ensures ExtractTargetPriceFromScript(TargetMarker + "19.99}") == Ok(Some(Float("19.99")))
  {
    assert TargetMarker + "19.99}" == TargetMarker + "19.99" + "}";
    assert IsDigit("19.99"[0]);
    TargetPriceAfterMarker("19.99", "}");
  }

  // ---------------------------------------------------------------- Amazon image

  /** The host every image URL taken from the dynamic-image attribute starts with. */
  const MediaPrefix: string := "https://m.media-amazon.com"

  /** `s` starts with the entity `&quot;`. */
  predicate QuotAt(s: string) {
    |s| >= 6 && s[0] == '&' && s[1] == 'q' && s[2] == 'u' && s[3] == 'o' && s[4] == 't' && s[5] == ';'
  }

  /** `html.unescape`, reduced to the one entity the attribute uses: `&quot;` becomes `"`. */
  function Unescape(s: string): string
    decreases |s|
  {
    if |s| == 0 then ""
    else if QuotAt(s) then "\"" + Unescape(s[6..])
    else [s[0]] + Unescape(s[1..])
  }

  /** Writing every `"` as `&quot;`, as the page's markup does inside an attribute. */
  function EscapeQuotes(s: string): (r: string)
    decreases |s|
  {
    if |s| == 0 then ""
    else if s[0] == '"' then "&quot;" + EscapeQuotes(s[1..])
    else [s[0]] + EscapeQuotes(s[1..])
  }

  /** Unescaping undoes the attribute's escaping of quotes, for text without '&'. */
  lemma {:induction false} UnescapeEscapeQuotes(s: string)
    requires '&' !in s
    ensures Unescape(EscapeQuotes(s)) == s
    decreases |s|
  {
    if |s| > 0 {
      assert '&' !in s[1..] by {
        assert forall c :: c in s[1..] ==> c in s;
      }
      UnescapeEscapeQuotes(s[1..]);
      var e := EscapeQuotes(s);
      if s[0] == '"' {
        assert e[..6] == "&quot;";
        assert e[6..] == EscapeQuotes(s[1..]);
      } else {
        assert s[0] != '&';
        assert e[0] == s[0];
        assert e[1..] == EscapeQuotes(s[1..]);
      }
      assert s == [s[0]] + s[1..];
    }
  }

  /**
   * `u` is a media URL standing between double quotes at position `i` of `d`:
   * the pattern `"(https://m\.media-amazon\.com[^"]+)"` matches there with `u`
   * as its group.
   */
  predicate QuotedUrlAt(d: string, i: int, u: string) {
    && 0 <= i && i + |u| + 1 < |d|
    && d[i] == '"' && d[i + 1..i + 1 + |u|] == u && d[i + 1 + |u|] == '"'
    && StartsWith(u, MediaPrefix) && |u| > |MediaPrefix| && '"' !in u
  }

  /** The URL the pattern captures when it matches at `i`, if it does. */
  function UrlAt(d: string, i: nat): (r: Option<string>)
    requires i < |d|
    ensures r.Some? ==> QuotedUrlAt(d, i, r.value)
    ensures r.None? ==> forall u :: !QuotedUrlAt(d, i, u)
  {
    var p := |MediaPrefix|;
    if d[i] == '"' && StartsWith(d[i + 1..], MediaPrefix) then
      var rest := d[i + 1 + p..];
      match Find(rest, '"')
      case None =>
        NoClosingQuote(d, i, rest);
        None
      case Some(q) =>
        if q == 0 then
          EmptyTail(d, i, rest);
          None
        else
          UrlFound(d, i, rest, q);
          Some(MediaPrefix + rest[..q])
    else
      NotAtQuote(d, i);
      None
  }

  lemma UrlFound(d: string, i: nat, rest: string, q: nat)
    requires i < |d| && d[i] == '"' && StartsWith(d[i + 1..], MediaPrefix)
    requires rest == d[i + 1 + |MediaPrefix|..]
    requires 0 < q < |rest| && rest[q] == '"' && '"' !in rest[..q]
    ensures QuotedUrlAt(d, i, MediaPrefix + rest[..q])
  {
    var p := |MediaPrefix|;
    var u := MediaPrefix + rest[..q];
    assert d[i + 1..i + 1 + p] == MediaPrefix;
    assert d[i + 1..i + 1 + |u|] == u;
    assert '"' !in MediaPrefix;
    assert '"' !in u by {
      assert forall c :: c in u ==> c in MediaPrefix || c in rest[..q];
    }
  }

  lemma NotAtQuote(d: string, i: nat)
    requires i < |d|
    requires !(d[i] == '"' && StartsWith(d[i + 1..], MediaPrefix))
    ensures forall u :: !QuotedUrlAt(d, i, u)
  {
    forall u ensures !QuotedUrlAt(d, i, u) {
      if |MediaPrefix| <= |u| && i + |u| + 1 < |d| {
        assert d[i + 1..i + 1 + |u|][..|MediaPrefix|] == d[i + 1..][..|MediaPrefix|];
      }
    }
  }

  lemma NoClosingQuote(d: string, i: nat, rest: string)
    requires i + 1 + |MediaPrefix| <= |d| && rest == d[i + 1 + |MediaPrefix|..]
    requires '"' !in rest
    ensures forall u :: !QuotedUrlAt(d, i, u)
  {
    forall u ensures !QuotedUrlAt(d, i, u) {
      if |MediaPrefix| <= |u| && i + |u| + 1 < |d| {
        assert d[i + 1 + |u|] == rest[|u| - |MediaPrefix|];
      }
    }
  }

  lemma EmptyTail(d: string, i: nat, rest: string)
    requires i + 1 + |MediaPrefix| < |d| && rest == d[i + 1 + |MediaPrefix|..]
    requires rest[0] == '"'
    ensures forall u :: !QuotedUrlAt(d, i, u)
  {
    forall u ensures !QuotedUrlAt(d, i, u) {
      if |MediaPrefix| < |u| && i + |u| + 1 < |d| {
        assert d[i + 1..i + 1 + |u|][|MediaPrefix|] == rest[0];
      }
    }
  }

  /** The pattern matches leftmost at `i`, capturing `u`. */
  ghost predicate LeftmostUrl(d: string, i: int, u: string) {
    QuotedUrlAt(d, i, u) && forall j, v :: 0 <= j < i ==> !QuotedUrlAt(d, j, v)
  }

  /** The leftmost match at or after `from`. */
  function FindUrl(d: string, from: nat): (r: Option<string>)
    requires from <= |d|
    ensures r.Some? ==> exists i :: from <= i && QuotedUrlAt(d, i, r.value)
                                     && forall j, v :: from <= j < i ==> !QuotedUrlAt(d, j, v)
    ensures r.None? ==> forall j, v :: from <= j ==> !QuotedUrlAt(d, j, v)
    decreases |d| - from
  {
    if from == |d| then None
    else match UrlAt(d, from)
      case Some(u) =>
        assert from <= from && QuotedUrlAt(d, from, u);
        Some(u)
      case None =>
        var r := FindUrl(d, from + 1);
        NoUrlAtFrom(d, from, r);
        r
  }

  /** With no match at `from`, the leftmost match from `from + 1` is the leftmost from `from`. */
  lemma NoUrlAtFrom(d: string, from: nat, r: Option<string>)
    requires from < |d| && forall u :: !QuotedUrlAt(d, from, u)
    requires r.Some? ==> exists i :: from + 1 <= i && QuotedUrlAt(d, i, r.value)
                                     && forall j, v :: from + 1 <= j < i ==> !QuotedUrlAt(d, j, v)
    requires r.None? ==> forall j, v :: from + 1 <= j ==> !QuotedUrlAt(d, j, v)
    ensures r.Some? ==> exists i :: from <= i && QuotedUrlAt(d, i, r.value)
                                    && forall j, v :: from <= j < i ==> !QuotedUrlAt(d, j, v)
    ensures r.None? ==> forall j, v :: from <= j ==> !QuotedUrlAt(d, j, v)
  {
    if r.Some? {
      var i :| from + 1 <= i && QuotedUrlAt(d, i, r.value)
               && forall j, v :: from + 1 <= j < i ==> !QuotedUrlAt(d, j, v);
      assert from <= i;
    }
  }

  /**
   * `extract_amazon_image_from_dynamic_image_attr(attr_value)`: `None` for a
   * missing or empty attribute; otherwise, after unescaping, the first quoted
   * URL on Amazon's media host, or `None` when there is none.
   */
  function ExtractAmazonImage(attr: Option<string>): (r: Option<string>)
    ensures attr.None? || attr == Some("") ==> r.None?
    ensures r.Some? ==> StartsWith(r.value, MediaPrefix) && |r.value| > |MediaPrefix| && '"' !in r.value
    ensures r.Some? ==> exists i :: LeftmostUrl(Unescape(attr.value), i, r.value)
    ensures attr.Some? && attr.value != "" && r.None? ==>
      forall i, u :: !QuotedUrlAt(Unescape(attr.value), i, u)
  {
    if attr.None? || attr.value == "" then None
    else
      var decoded := Unescape(attr.value);
      var r := FindUrl(decoded, 0);
      FoundUrlIsLeftmost(decoded, r);
      r
  }

  lemma FoundUrlIsLeftmost(d: string, r: Option<string>)
    requires r == FindUrl(d, 0)
    ensures r.Some? ==> exists i :: LeftmostUrl(d, i, r.value)
  {
    if r.Some? {
      var i :| 0 <= i && QuotedUrlAt(d, i, r.value)
               && forall j, v :: 0 <= j < i ==> !QuotedUrlAt(d, j, v);
      assert LeftmostUrl(d, i, r.value);
    }
  }

  /** Unescaping leaves a part without '&' as it is. */
  lemma {:induction false} UnescapePlainPrefix(x: string, y: string)
    requires '&' !in x
    ensures Unescape(x + y) == x + Unescape(y)
    decreases |x|
  {
    if |x| == 0 {
      assert x + y == y;
    } else {
      var rest := x[1..];
      assert '&' !in rest by {
        assert forall k :: 0 <= k < |rest| ==> rest[k] == x[k + 1];
      }
      assert x + y == [x[0]] + (rest + y) by {
        assert x == [x[0]] + rest;
      }
      assert x[0] in x;
      UnescapePlainHead(x[0], rest + y);
      UnescapePlainPrefix(rest, y);
      assert [x[0]] + (rest + Unescape(y)) == x + Unescape(y) by {
        assert x == [x[0]] + rest;
      }
    }
  }

  /** A first character other than '&' is copied unchanged. */
  lemma UnescapePlainHead(c: char, t: string)
    requires c != '&'
    ensures Unescape([c] + t) == [c] + Unescape(t)
  {
    assert ([c] + t)[1..] == t;
  }

  /** Two media URLs quoted at the same position are the same URL. */
  lemma QuotedUrlUnique(d: string, i: int, u: string, v: string)
    requires QuotedUrlAt(d, i, u) && QuotedUrlAt(d, i, v)
    ensures u == v
  {
    var rest := d[i + 1..];
    assert forall k :: 0 <= k < |u| ==> rest[k] == u[k];
    assert forall k :: 0 <= k < |v| ==> rest[k] == v[k];
    assert rest[|u|] == '"' && rest[|v|] == '"';
    assert |u| <= |v| by {
      assert forall k :: 0 <= k < |v| ==> v[k] != '"';
    }
    assert |v| <= |u| by {
      assert forall k :: 0 <= k < |u| ==> u[k] != '"';
    }
  }

  /** One leading `&quot;` becomes one `"`. */
  lemma UnescapeEntity(t: string)
    ensures Unescape("&quot;" + t) == "\"" + Unescape(t)
  {
    var z := "&quot;" + t;
    assert z[..6] == "&quot;";
    assert z[6..] == t;
  }

  /** A '&' that does not start `&quot;` is copied unchanged. */
  lemma UnescapeOtherAmp(t: string)
    requires !QuotAt("&" + t)
    ensures Unescape("&" + t) == "&" + Unescape(t)
  {
    assert ("&" + t)[1..] == t;
  }

  /** Unescaping `&quot;u&quot;` followed by more text, for `u` without '&'. */
  lemma UnescapeQuoted(u: string, tail: string)
    requires '&' !in u
    ensures Unescape("&quot;" + (u + ("&quot;" + tail))) == "\"" + (u + ("\"" + Unescape(tail)))
  {
    UnescapeEntity(tail);
    UnescapePlainPrefix(u, "&quot;" + tail);
    UnescapeEntity(u + ("&quot;" + tail));
  }

  /** Unescaping a quoted first key. */
  lemma UnescapeFirstKey(u: string, tail: string)
    requires '&' !in u
    ensures Unescape("{" + ("&quot;" + (u + ("&quot;" + tail)))) == "{" + ("\"" + (u + ("\"" + Unescape(tail))))
  {
    UnescapeQuoted(u, tail);
    UnescapePlainPrefix("{", "&quot;" + (u + ("&quot;" + tail)));
  }

  /**
   * The attribute holds a JSON-like map whose first key is an escaped media
   * URL: that URL is the one extracted, whatever follows it.
   */
  lemma AmazonImageFirstKey(u: string, tail: string)
    requires StartsWith(u, MediaPrefix) && |u| > |MediaPrefix|
    requires '"' !in u && '&' !in u
    ensures ExtractAmazonImage(Some("{&quot;" + u + "&quot;" + tail)) == Some(u)
  {
    var attr := "{&quot;" + u + "&quot;" + tail;
    assert attr == "{" + ("&quot;" + (u + ("&quot;" + tail)));
    UnescapeFirstKey(u, tail);
    FirstKeyIsLeftmost(u, Unescape(tail));
    LeftmostUrlExtracted(attr, 1, u);
  }

  /** Whenever the unescaped value has its leftmost match at `i`, that match's URL is the one extracted. */
  lemma LeftmostUrlExtracted(attr: string, i: int, u: string)
    requires attr != "" && LeftmostUrl(Unescape(attr), i, u)
    ensures ExtractAmazonImage(Some(attr)) == Some(u)
  {
    var d := Unescape(attr);
    var r := ExtractAmazonImage(Some(attr));
    assert QuotedUrlAt(d, i, u);
    assert r.Some?;
    var j :| LeftmostUrl(d, j, r.value);
    LeftmostUrlUnique(d, j, r.value, i, u);
  }

  /** In `{"u"...` the media URL `u` is the leftmost match, at position 1. */
  lemma FirstKeyIsLeftmost(u: string, rest: string)
    requires StartsWith(u, MediaPrefix) && |u| > |MediaPrefix| && '"' !in u
    ensures LeftmostUrl("{" + ("\"" + (u + ("\"" + rest))), 1, u)
  {
    var d := "{" + ("\"" + (u + ("\"" + rest)));
    assert d[1] == '"';
    assert d[2..2 + |u|] == u;
    assert d[2 + |u|] == '"';
    assert d[0] == '{';
  }

  /** The pattern has one leftmost match. */
  lemma LeftmostUrlUnique(d: string, i: int, u: string, j: int, v: string)
    requires LeftmostUrl(d, i, u) && LeftmostUrl(d, j, v)
    ensures i == j && u == v
  {
    assert !(j < i) && !(i < j);
    QuotedUrlUnique(d, i, u, v);
  }
}

=== FILE: properties.dfy ===
/** Properties of the scrape cascade that relate several steps or several calls. */
module ScraperProperties {
  import opened Wrappers
  import opened PyStr
  import opened PyValue
  import opened Record
  import opened Patterns
  import opened Store
  import opened Scraper

  // ---------------------------------------------------------------- Target

  /**
   * With a price already in the record, `scrape_target` looks at the first
   * script only: its price, if it has one, replaces the old one, and the
   * loop stops either way.
   */
  lemma TargetPriceAlreadySet(scripts: seq<Option<string>>, p: Product)
    requires p.price.Some? && |scripts| > 0
    ensures ScrapeTarget(scripts, p) == ScrapeTarget(scripts[..1], p)
    ensures ExtractTargetPriceFromScript(ScriptText(scripts[0])).Ok? ==>
      ScrapeTarget(scripts, p) == Ok(SetProduct(p, None, None, ExtractTargetPriceFromScript(ScriptText(scripts[0])).value))
    ensures ExtractTargetPriceFromScript(ScriptText(scripts[0])).Raised? ==> ScrapeTarget(scripts, p) == Raised(ValueError)
  {
    assert scripts[..1][0] == scripts[0];
  }

  /** With no price in the record and no script matching the pattern, `scrape_target` changes nothing. */
  lemma {:induction false} TargetNoMatch(scripts: seq<Option<string>>, p: Product)
    requires p.price.None?
    requires forall j :: 0 <= j < |scripts| ==> TargetPriceLexeme(ScriptText(scripts[j])).None?
    ensures ScrapeTarget(scripts, p) == Ok(p)
    decreases |scripts|
  {
    if |scripts| > 0 {
      assert TargetPriceLexeme(ScriptText(scripts[0])).None?;
      TargetNoMatch(scripts[1..], p);
    }
  }

  /**
   * With no price in the record, `scrape_target` takes the price from the
   * first script that matches the pattern, and ignores every later script;
   * a capture `float()` rejects raises ValueError instead.
   */
  lemma {:induction false} TargetFirstMatch(scripts: seq<Option<string>>, p: Product, k: nat)
    requires p.price.None?
    requires k < |scripts| && TargetPriceLexeme(ScriptText(scripts[k])).Some?
    requires forall j :: 0 <= j < k ==> TargetPriceLexeme(ScriptText(scripts[j])).None?
    ensures var d := TargetPriceLexeme(ScriptText(scripts[k])).value;
      ScrapeTarget(scripts, p) == if IsFloatLiteral(d) then Ok(p.(price := Some(Float(d)))) else Raised(ValueError)
    decreases k
  {
    if k > 0 {
      TargetSkipsScript(scripts, p);
      assert scripts[1..][k - 1] == scripts[k];
      TargetFirstMatch(scripts[1..], p, k - 1);
    } else {
      TargetTakesScript(scripts, p);
    }
  }

  /** A first script without a match leaves a price-less record as it is and moves on. */
  lemma TargetSkipsScript(scripts: seq<Option<string>>, p: Product)
    requires p.price.None? && |scripts| > 0 && TargetPriceLexeme(ScriptText(scripts[0])).None?
    ensures ScrapeTarget(scripts, p) == ScrapeTarget(scripts[1..], p)
  {
    assert ExtractTargetPriceFromScript(ScriptText(scripts[0])) == Ok(None);
  }

  /** A first script with a match decides the price of a price-less record. */
  lemma TargetTakesScript(scripts: seq<Option<string>>, p: Product)
    requires p.price.None? && |scripts| > 0 && TargetPriceLexeme(ScriptText(scripts[0])).Some?
    ensures var d := TargetPriceLexeme(ScriptText(scripts[0])).value;
      ScrapeTarget(scripts, p) == if IsFloatLiteral(d) then Ok(p.(price := Some(Float(d)))) else Raised(ValueError)
  {
  }

  // ---------------------------------------------------------------- Walmart

  /** The product object holding the three fields. */
  function WalmartItem(name: Json, price: Json, image: Json): Json {
    Obj(map[
      "name" := name,
      "priceInfo" := Obj(map["currentPrice" := Obj(map["price" := price])]),
      "imageInfo" := Obj(map["thumbnailUrl" := image])])
  }

  /** The `__NEXT_DATA__` state blob with that product at `props.pageProps.initialData.data.product`. */
  function WalmartState(name: Json, price: Json, image: Json): Json {
    Obj(map["props" := Obj(map["pageProps" := Obj(map["initialData" := Obj(map["data" :=
      Obj(map["product" := WalmartItem(name, price, image)])])])])])
  }

  /** Walking the state blob reaches the product and reads its three fields back. */
  lemma WalmartStateFields(name: Json, price: Json, image: Json)
    ensures WalmartProduct(WalmartState(name, price, image)) == Ok(WalmartFields(name, price, image))
  {
    WalmartStatePath(name, price, image);
    WalmartItemFields(name, price, image);
  }

  lemma WalmartStatePath(name: Json, price: Json, image: Json)
    ensures SubscriptPath(WalmartState(name, price, image), ProductKeys) == Ok(WalmartItem(name, price, image))
  {
    var data := Obj(map["product" := WalmartItem(name, price, image)]);
    var initialData := Obj(map["data" := data]);
    var pageProps := Obj(map["initialData" := initialData]);
    var props := Obj(map["pageProps" := pageProps]);
    assert At(data, ["product"]) == Some(WalmartItem(name, price, image));
    assert At(initialData, ["data", "product"]) == At(data, ["product"]);
    assert At(pageProps, ["initialData", "data", "product"]) == At(initialData, ["data", "product"]);
    assert At(props, ["pageProps", "initialData", "data", "product"]) == At(pageProps, ["initialData", "data", "product"]);
    assert At(WalmartState(name, price, image), ProductKeys) == At(props, ["pageProps", "initialData", "data", "product"]);
  }

  lemma WalmartItemFields(name: Json, price: Json, image: Json)
    ensures ProductFields(WalmartItem(name, price, image)) == Ok(WalmartFields(name, price, image))
  {
    var item := WalmartItem(name, price, image);
    var currentPrice := Obj(map["price" := price]);
    var priceInfo := Obj(map["currentPrice" := currentPrice]);
    var imageInfo := Obj(map["thumbnailUrl" := image]);
    assert At(currentPrice, ["price"]) == Some(price);
    assert At(priceInfo, ["currentPrice", "price"]) == At(currentPrice, ["price"]);
    assert At(item, ["priceInfo", "currentPrice", "price"]) == At(priceInfo, ["currentPrice", "price"]);
    assert At(imageInfo, ["thumbnailUrl"]) == Some(image);
    assert At(item, ["imageInfo", "thumbnailUrl"]) == At(imageInfo, ["thumbnailUrl"]);
    assert Lookup(item.fields, "name") == name;
  }

  /**
   * A `__NEXT_DATA__` blob, whatever else it holds, whose product object can
   * be read and has a str name: the record's name is overwritten, and so is
   * its price and image wherever the blob gives one that is not `None`.
   */
  lemma WalmartFillsRecord(page: Page, p: Product, m: map<string, Json>, name: string)
    requires page.nextData.Some? && page.nextData.value.Parsed?
    requires At(page.nextData.value.value, ProductKeys) == Some(Obj(m))
    requires ProductReadable(m) && Lookup(m, "name") == Str(name)
    ensures WalmartBranch(page, p)
      == Ok(SetProduct(p, Some(Object(Str(name))), Arg(At(Obj(m), ImagePath).GetOr(Null)), Arg(At(Obj(m), PricePath).GetOr(Null))))
  {
    var w := WalmartProduct(page.nextData.value.value);
    assert w == ProductFields(Obj(m));
    assert w.Ok?;
  }

  /**
   * A blob whose product name is not a str (missing, `null`, a number, ...)
   * makes the branch raise AttributeError: from `shorten_name` when the rest
   * of the product can be read, and from `.get` on the `None` returned when
   * it cannot.
   */
  lemma WalmartNameNotStrRaises(page: Page, p: Product, m: map<string, Json>)
    requires page.nextData.Some? && page.nextData.value.Parsed?
    requires At(page.nextData.value.value, ProductKeys) == Some(Obj(m))
    requires !Lookup(m, "name").Str?
    ensures WalmartBranch(page, p) == Raised(AttributeError)
  {
    var w := WalmartProduct(page.nextData.value.value);
    assert w == ProductFields(Obj(m));
    assert w.Ok? ==> w.value.name == Lookup(m, "name");
  }

  /** The smallest such blob, whose every level holds only the key on the path, is read as expected. */
  lemma WalmartMinimalState(page: Page, p: Product, name: string, price: Json, image: Json)
    requires page.nextData == Some(Parsed(WalmartState(Str(name), price, image)))
    ensures WalmartBranch(page, p) == Ok(SetProduct(p, Some(Object(Str(name))), Arg(image), Arg(price)))
  {
    WalmartStateFields(Str(name), price, image);
  }

  /**
   * A Walmart page without `__NEXT_DATA__` (a bot-block page) makes the
   * whole scrape raise AttributeError: `scrape_walmart` returns `None` and
   * `scrape_product` calls `.get` on it.
   */
  lemma WalmartBlockedPageRaises(url: string, page: Page)
    requires GetStore(url) == Walmart
    requires page.nextData.None?
    requires StructuredData(page, Empty).Ok?
    ensures ScrapeProduct(url, Some(page)) == Raised(AttributeError)
  {
  }

  // ---------------------------------------------------------------- the whole cascade per store

  /**
   * On a Target page the cascade runs JSON-LD, then the heading and
   * og:image, then the script search: with no price after the first two
   * steps, the first script that matches sets the price (or `float()` raises).
   */
  lemma CascadeTarget(url: string, page: Page, k: nat)
    requires GetStore(url) == Target
    requires StructuredData(page, Empty).Ok? && StructuredData(page, Empty).value.price.None?
    requires k < |page.scripts| && TargetPriceLexeme(ScriptText(page.scripts[k])).Some?
    requires forall j :: 0 <= j < k ==> TargetPriceLexeme(ScriptText(page.scripts[j])).None?
    ensures var g := GeneralizedScrapeAttempt(page, StructuredData(page, Empty).value);
      var d := TargetPriceLexeme(ScriptText(page.scripts[k])).value;
      Cascade(url, page) == if IsFloatLiteral(d) then Ok(g.(price := Some(Float(d)))) else Raised(ValueError)
  {
    var g := GeneralizedScrapeAttempt(page, StructuredData(page, Empty).value);
    TargetFirstMatch(page.scripts, g, k);
  }

  /** On a Target page where no script matches and no price was found, the record is the one the generic step left. */
  lemma CascadeTargetNoMatch(url: string, page: Page)
    requires GetStore(url) == Target
    requires StructuredData(page, Empty).Ok? && StructuredData(page, Empty).value.price.None?
    requires forall j :: 0 <= j < |page.scripts| ==> TargetPriceLexeme(ScriptText(page.scripts[j])).None?
    ensures Cascade(url, page) == Ok(GeneralizedScrapeAttempt(page, StructuredData(page, Empty).value))
  {
    TargetNoMatch(page.scripts, GeneralizedScrapeAttempt(page, StructuredData(page, Empty).value));
  }

  /**
   * On a Walmart page the cascade runs JSON-LD, then the heading and
   * og:image, then `scrape_walmart`, whose readable product with a str name
   * overwrites what the first two steps found.
   */
  lemma CascadeWalmart(url: string, page: Page, m: map<string, Json>, name: string)
    requires GetStore(url) == Walmart
    requires StructuredData(page, Empty).Ok?
    requires page.nextData.Some? && page.nextData.value.Parsed?
    requires At(page.nextData.value.value, ProductKeys) == Some(Obj(m))
    requires ProductReadable(m) && Lookup(m, "name") == Str(name)
    ensures var g := GeneralizedScrapeAttempt(page, StructuredData(page, Empty).value);
      Cascade(url, page)
        == Ok(SetProduct(g, Some(Object(Str(name))), Arg(At(Obj(m), ImagePath).GetOr(Null)), Arg(At(Obj(m), PricePath).GetOr(Null))))
  {
    WalmartFillsRecord(page, GeneralizedScrapeAttempt(page, StructuredData(page, Empty).value), m, name);
  }

  /**
   * On a Target page whose JSON-LD already set a price, `scrape_target`
   * still runs on the generic step's record: the first script's match
   * replaces the price, or its `float()` raises ValueError.
   */
  lemma CascadeTargetPriceSet(url: string, page: Page)
    requires GetStore(url) == Target
    requires StructuredData(page, Empty).Ok? && StructuredData(page, Empty).value.price.Some?
    requires |page.scripts| > 0
    ensures var g := GeneralizedScrapeAttempt(page, StructuredData(page, Empty).value);
      var e := ExtractTargetPriceFromScript(ScriptText(page.scripts[0]));
      Cascade(url, page) == if e.Raised? then Raised(ValueError) else Ok(SetProduct(g, None, None, e.value))
  {
    TargetPriceAlreadySet(page.scripts, GeneralizedScrapeAttempt(page, StructuredData(page, Empty).value));
  }

  /**
   * The Walmart errors escape the whole cascade: an undecodable blob raises
   * its decoding error, and a walk error swallowed inside `scrape_walmart` or
   * a product name that is not a str raises AttributeError.
   */
  lemma CascadeWalmartRaises(url: string, page: Page)
    requires GetStore(url) == Walmart
    requires StructuredData(page, Empty).Ok?
    ensures page.nextData == Some(Malformed) ==> Cascade(url, page) == Raised(JsonDecodeError)
    ensures page.nextData.Some? && page.nextData.value.Parsed? ==>
      var w := WalmartProduct(page.nextData.value.value);
      w.Raised? || !w.value.name.Str? ==> Cascade(url, page) == Raised(AttributeError)
  {
  }

  // ---------------------------------------------------------------- Amazon and other stores

  /**
   * For Amazon and for unrecognised stores the returned record is the one
   * left by the JSON-LD and generic steps: what their branches compute is
   * never written back.
   */
  lemma AmazonAndUnknownKeepGenericRecord(url: string, page: Page)
    requires GetStore(url) == Amazon || GetStore(url) == Unknown
    ensures StructuredData(page, Empty).Raised? ==> Cascade(url, page) == Raised(StructuredData(page, Empty).error)
    ensures StructuredData(page, Empty).Ok? ==>
      Cascade(url, page) == Ok(GeneralizedScrapeAttempt(page, StructuredData(page, Empty).value))
  {
  }

  /**
   * For Amazon and for unrecognised stores only the JSON-LD block, the
   * heading, the title and og:image decide the outcome: the Amazon elements,
   * the price-like element, the scripts and `__NEXT_DATA__` make no difference.
   */
  lemma AmazonAndUnknownIgnoreStoreParts(url: string, page: Page, other: Page)
    requires GetStore(url) == Amazon || GetStore(url) == Unknown
    requires other.jsonLd == page.jsonLd && other.h1 == page.h1 && other.title == page.title
    requires other.ogImage == page.ogImage
    ensures ScrapeProduct(url, Some(page)) == ScrapeProduct(url, Some(other))
  {
    AmazonAndUnknownKeepGenericRecord(url, page);
    AmazonAndUnknownKeepGenericRecord(url, other);
    assert StructuredData(page, Empty) == StructuredData(other, Empty);
    if StructuredData(page, Empty).Ok? {
      var q := StructuredData(page, Empty).value;
      assert GeneralizedScrapeAttempt(page, q) == GeneralizedScrapeAttempt(other, q);
    }
    SameCascadeSameScrape(url, page, other);
  }

  /** `scrape_product` depends on the page only through the cascade's outcome. */
  lemma SameCascadeSameScrape(url: string, page: Page, other: Page)
    requires Cascade(url, page) == Cascade(url, other)
    ensures ScrapeProduct(url, Some(page)) == ScrapeProduct(url, Some(other))
  {
  }

  // ---------------------------------------------------------------- JSON-LD and the generic step

  /**
   * A JSON-LD product with a str name, an image and a dict-shaped offer with a
   * price fills all three fields, and the generic step then leaves them alone.
   */
  lemma StructuredDataFillsAll(page: Page, m: map<string, Json>, offers: map<string, Json>)
    requires page.jsonLd == Some(Parsed(Obj(m)))
    requires "name" in m && m["name"].Str?
    requires "image" in m && Truthy(m["image"])
    requires "offers" in m && m["offers"] == Obj(offers) && "price" in offers && offers["price"] != Null
    ensures StructuredData(page, Empty)
      == Ok(Product(Some(Object(Str(ShortenName(m["name"].s)))), Some(Object(m["image"])), Some(Object(offers["price"]))))
    ensures GeneralizedScrapeAttempt(page, StructuredData(page, Empty).value) == StructuredData(page, Empty).value
  {
  }

  /** A JSON-LD list is read through its first item: the rest of the list makes no difference. */
  lemma StructuredDataListUsesFirst(page: Page, other: Page, p: Product, item: Json, rest: seq<Json>)
    requires page.jsonLd == Some(Parsed(Arr([item] + rest))) && !item.Arr?
    requires other.jsonLd == Some(Parsed(item))
    ensures StructuredData(page, p) == StructuredData(other, p)
  {
    assert Arr([item] + rest).items[0] == item;
  }

  /**
   * An item with a non-empty str name and neither image nor offers sets the
   * name alone: the name's truthiness is enough to pass the `or` test.
   */
  lemma StructuredDataNameOnly(page: Page, p: Product, name: string)
    requires page.jsonLd == Some(Parsed(Obj(map["name" := Str(name)])))
    requires ShortenName(name) != ""
    ensures StructuredData(page, p) == Ok(p.(name := Some(Object(Str(ShortenName(name))))))
  {
    var m := map["name" := Str(name)];
    assert Lookup(m, "name") == Str(name);
    assert Lookup(m, "image") == Null;
    assert OfferPrice(m) == Null;
  }

  /** Without JSON-LD, the first heading gives the name and og:image the image. */
  lemma HeuristicsFillNameAndImage(page: Page, heading: string, image: string)
    requires page.jsonLd.None?
    requires page.h1 == Some(heading)
    requires page.ogImage == Some(image) && image != ""
    ensures GeneralizedScrapeAttempt(page, StructuredData(page, Empty).value)
      == Product(Some(Object(Str(ShortenName(Strip(heading))))), Some(Object(Str(image))), None)
  {
  }

  /** An empty JSON-LD list makes `data[0]` raise IndexError, which the `except` clause does not list. */
  lemma StructuredDataEmptyListRaises(url: string, page: Page)
    requires page.jsonLd == Some(Parsed(Arr([])))
    ensures ScrapeProduct(url, Some(page)) == Raised(IndexError)
  {
  }

  /** A JSON-LD item without a str name makes `shorten_name` raise AttributeError. */
  lemma StructuredDataNameNotStrRaises(url: string, page: Page, m: map<string, Json>)
    requires page.jsonLd == Some(Parsed(Obj(m)))
    requires "name" !in m || !m["name"].Str?
    ensures ScrapeProduct(url, Some(page)) == Raised(AttributeError)
  {
    assert PyShortenName(Lookup(m, "name")) == Raised(AttributeError);
    assert StructuredFields(Obj(m)) == Raised(AttributeError);
    assert StructuredData(page, Empty) == Raised(AttributeError);
    assert Cascade(url, page) == Raised(AttributeError);
  }

  /** A heading that shortens to the empty string still fills `name`, with "". */
  lemma EmptyHeadingFillsName(url: string, page: Page)
    requires GetStore(url) == Amazon || GetStore(url) == Unknown
    requires page.jsonLd.None?
    requires page.h1.Some? && ShortenName(Strip(page.h1.value)) == ""
    requires page.ogImage.None? || page.ogImage.value == ""
    ensures Cascade(url, page) == Ok(Product(Some(Object(Str(""))), None, None))
  {
    assert StructuredData(page, Empty) == Ok(Empty);
    var q := GeneralizedScrapeAttempt(page, Empty);
    assert q.name == Some(Object(Str("")));
    AmazonAndUnknownKeepGenericRecord(url, page);
  }

  /**
   * An empty name is falsy, so a page whose only find is a heading that
   * shortens to "" is reported as nothing found.
   */
  lemma EmptyNameIsNothingFound(url: string, page: Page)
    requires GetStore(url) == Amazon || GetStore(url) == Unknown
    requires page.jsonLd.None?
    requires page.h1.Some? && ShortenName(Strip(page.h1.value)) == ""
    requires page.ogImage.None? || page.ogImage.value == ""
    ensures ScrapeProduct(url, Some(page)) == Ok(None)
  {
    EmptyHeadingFillsName(url, page);
    EmptyNameRecordIsFalsy();
    NothingTruthyIsNothingFound(url, page, Product(Some(Object(Str(""))), None, None));
  }

  lemma EmptyNameRecordIsFalsy()
    ensures !AnyTruthy(Product(Some(Object(Str(""))), None, None))
  {
    assert !Truthy(Str(""));
  }

  lemma NothingTruthyIsNothingFound(url: string, page: Page, q: Product)
    requires Cascade(url, page) == Ok(q)
    requires !AnyTruthy(q)
    ensures ScrapeProduct(url, Some(page)) == Ok(None)
  {
  }
}

=== FILE: pystr.dfy ===
/**
 * Models of the Python `str` operations the scraper relies on: `startswith`,
 * `split` with a one-character separator, `strip` with no argument, ASCII
 * `lower`, `find` and `replace(c, "")`.
 */
module PyStr {
  import opened Wrappers

  /** `s.startswith(prefix)` */
  predicate StartsWith(s: string, prefix: string) {
    |prefix| <= |s| && s[..|prefix|] == prefix
  }

  /** `sep.join(parts)` for a one-character separator. */
  function Join(parts: seq<string>, sep: char): string
    decreases |parts|
  {
    if |parts| == 0 then ""
    else if |parts| == 1 then parts[0]
    else parts[0] + [sep] + Join(parts[1..], sep)
  }

  /**
   * `s.split(sep)` for a one-character separator: the maximal pieces between
   * occurrences of `sep`, so there is always at least one piece, no piece holds
   * `sep`, and joining the pieces back with `sep` gives `s` again.
   */
  function Split(s: string, sep: char): (parts: seq<string>)
    ensures |parts| >= 1
    ensures forall i :: 0 <= i < |parts| ==> sep !in parts[i]
    ensures Join(parts, sep) == s
    ensures StartsWith(s, parts[0])
    ensures |parts[0]| == |s| || s[|parts[0]|] == sep
    decreases |s|
  {
    if |s| == 0 then [""]
    else
      var rest := Split(s[1..], sep);
      if s[0] == sep then
        assert s == [sep] + s[1..];
        [""] + rest
      else
        var parts := [[s[0]] + rest[0]] + rest[1..];
        assert parts[1..] == rest[1..];
        assert s == [s[0]] + s[1..];
        parts
  }

  /** Joining two or more pieces puts the separator into the result. */
  lemma JoinShowsSeparator(parts: seq<string>, sep: char)
    ensures |parts| > 1 ==> sep in Join(parts, sep)
  {
    if |parts| > 1 {
      assert Join(parts, sep)[|parts[0]|] == sep;
    }
  }

  /** Splitting text that holds no separator gives the text back as the only piece. */
  lemma SplitWithoutSeparator(s: string, sep: char)
    requires sep !in s
    ensures Split(s, sep) == [s]
  {
    var parts := Split(s, sep);
    JoinShowsSeparator(parts, sep);
    assert |parts| == 1;
  }

  /** Whitespace as Python's `str.isspace` defines it. */
  predicate IsSpace(c: char) {
    var n := c as int;
    (9 <= n <= 13) || (28 <= n <= 32) || n == 0x85 || n == 0xA0 || n == 0x1680
    || (0x2000 <= n <= 0x200A) || n == 0x2028 || n == 0x2029 || n == 0x202F
    || n == 0x205F || n == 0x3000
  }

  predicate AllSpace(s: string) {
    forall i :: 0 <= i < |s| ==> IsSpace(s[i])
  }

  lemma AllSpaceConcat(a: string, b: string)
    requires AllSpace(a) && AllSpace(b)
    ensures AllSpace(a + b)
  {
    forall i | 0 <= i < |a + b| ensures IsSpace((a + b)[i]) {
      if i < |a| {
        assert (a + b)[i] == a[i];
      } else {
        assert (a + b)[i] == b[i - |a|];
      }
    }
  }

  /** `r` occurs in `s` at `i`, with only whitespace before and after it. */
  predicate StrippedAt(s: string, i: int, r: string) {
    0 <= i <= |s| - |r| && s[i..i + |r|] == r && AllSpace(s[..i]) && AllSpace(s[i + |r|..])
  }

  /** `r` is what `s.strip()` gives: `s` with whitespace around it, and no whitespace at its own ends. */
  ghost predicate IsStripOf(s: string, r: string) {
    (exists i :: StrippedAt(s, i, r)) && (r == [] || (!IsSpace(r[0]) && !IsSpace(r[|r| - 1])))
  }

  /** `s.lstrip()` */
  function LStrip(s: string): (r: string)
    ensures |r| <= |s| && r == s[|s| - |r|..]
    ensures AllSpace(s[..|s| - |r|])
    ensures r == [] || !IsSpace(r[0])
    decreases |s|
  {
    if |s| > 0 && IsSpace(s[0]) then
      var r := LStrip(s[1..]);
      assert s[|s| - |r|..] == s[1..][|s| - 1 - |r|..];
      assert s[..|s| - |r|] == [s[0]] + s[1..][..|s| - 1 - |r|];
      AllSpaceConcat([s[0]], s[1..][..|s| - 1 - |r|]);
      r
    else s
  }

  /** `s.rstrip()` */
  function RStrip(s: string): (r: string)
    ensures |r| <= |s| && r == s[..|r|]
    ensures AllSpace(s[|r|..])
    ensures r == [] || !IsSpace(r[|r| - 1])
    decreases |s|
  {
    if |s| > 0 && IsSpace(s[|s| - 1]) then
      var t := s[..|s| - 1];
      var r := RStrip(t);
      assert s[..|r|] == t[..|r|];
      assert s[|r|..] == t[|r|..] + [s[|s| - 1]];
      AllSpaceConcat(t[|r|..], [s[|s| - 1]]);
      r
    else s
  }

  /**
   * `s.strip()`: the part of `s` left after dropping whitespace at both ends,
   * which itself neither starts nor ends with whitespace.
   */
  function Strip(s: string): (r: string)
    ensures exists i :: StrippedAt(s, i, r)
    ensures r == [] || (!IsSpace(r[0]) && !IsSpace(r[|r| - 1]))
  {
    var l := LStrip(s);
    var r := RStrip(l);
    StrippedInside(s, l, r);
    assert |r| > 0 ==> r[0] == l[0];
    r
  }

  /** Dropping leading whitespace and then trailing whitespace strips both ends. */
  lemma StrippedInside(s: string, l: string, r: string)
    requires |l| <= |s| && l == s[|s| - |l|..] && AllSpace(s[..|s| - |l|])
    requires |r| <= |l| && r == l[..|r|] && AllSpace(l[|r|..])
    ensures StrippedAt(s, |s| - |l|, r)
  {
    var i := |s| - |l|;
    assert s[i..i + |r|] == r;
    assert s[i + |r|..] == l[|r|..];
  }

  /** ASCII lower-casing of one character. */
  function LowerChar(c: char): char {
    if 'A' <= c <= 'Z' then (c as int + 32) as char else c
  }

  /** `s.lower()`, restricted to ASCII letters. */
  function Lower(s: string): (r: string)
    ensures |r| == |s|
    ensures forall i :: 0 <= i < |s| ==> r[i] == LowerChar(s[i])
  {
    seq(|s|, i requires 0 <= i < |s| => LowerChar(s[i]))
  }

  /** `s.find(c)`: the first index holding `c`, or `None` for Python's `-1`. */
  function Find(s: string, c: char): (r: Option<nat>)
    ensures r.None? <==> c !in s
    ensures r.Some? ==> r.value < |s| && s[r.value] == c && c !in s[..r.value]
    decreases |s|
  {
    if |s| == 0 then None
    else if s[0] == c then Some(0)
    else
      match Find(s[1..], c)
      case None => None
      case Some(k) =>
        assert s[..k + 1] == [s[0]] + s[1..][..k];
        Some(k + 1)
  }

  /** The first `c` of `p + [c] + rest` is the one right after `p` when `p` holds none. */
  lemma FindAfterPrefix(p: string, c: char, rest: string)
    requires c !in p
    ensures Find(p + [c] + rest, c) == Some(|p|)
  {
    var s := p + [c] + rest;
    assert s[|p|] == c;
    assert s[..|p|] == p;
  }

  /** `s.replace(c, "")`: `s` with every `c` removed. */
  function RemoveChar(s: string, c: char): (r: string)
    ensures c !in r
    ensures |r| <= |s|
    ensures c !in s ==> r == s
    decreases |s|
  {
    if |s| == 0 then ""
    else if s[0] == c then RemoveChar(s[1..], c)
    else [s[0]] + RemoveChar(s[1..], c)
  }

  /** Removing `c` works piece by piece: it distributes over concatenation. */
  lemma {:induction false} RemoveCharAppend(a: string, b: string, c: char)
    ensures RemoveChar(a + b, c) == RemoveChar(a, c) + RemoveChar(b, c)
    decreases |a|
  {
    if |a| == 0 {
      assert a + b == b;
    } else {
      assert (a + b)[0] == a[0];
      assert (a + b)[1..] == a[1..] + b;
      RemoveCharAppend(a[1..], b, c);
    }
  }

  /** On one character, `replace(c, "")` drops it exactly when it is `c`. */
  lemma RemoveCharSingle(x: char, c: char)
    ensures RemoveChar([x], c) == if x == c then "" else [x]
  {
    assert [x][1..] == "";
  }
}

=== FILE: pyvalue.dfy ===
/**
 * The Python values the scraper handles: what `json.loads` produces, the
 * exceptions that can escape, and the values stored in the product record.
 */
module PyValue {
  import opened Wrappers

  /**
   * A value as `json.loads` returns it. `Null` is Python's `None`; an object
   * keeps, as `json.loads` does, the last value given for a repeated key.
   */
  datatype Json =
    | Null
    | Bool(b: bool)
    | Num(n: real)
    | Str(s: string)
    | Arr(items: seq<Json>)
    | Obj(fields: map<string, Json>)

  /** The exception classes that the modelled code can raise. */
  datatype PyError =
    | AttributeError
    | IndexError
    | KeyError
    | TypeError
    | JsonDecodeError
    | ValueError

  /** A computation that either returns a value or raises an exception. */
  datatype Result<+T> = Ok(value: T) | Raised(error: PyError) {
    predicate IsFailure() {
      Raised?
    }

    function PropagateFailure<U>(): Result<U>
      requires Raised?
    {
      Raised(error)
    }

    function Extract(): T
      requires Ok?
    {
      value
    }
  }

  /** Python truthiness of a JSON value. */
  predicate Truthy(j: Json) {
    match j
    case Null => false
    case Bool(b) => b
    case Num(n) => n != 0.0
    case Str(s) => |s| > 0
    case Arr(items) => |items| > 0
    case Obj(fields) => |fields| > 0
  }

  /** `d.get(key, default)` on a dict. */
  function LookupOr(fields: map<string, Json>, key: string, default: Json): Json {
    if key in fields then fields[key] else default
  }

  /** `d.get(key)` on a dict. */
  function Lookup(fields: map<string, Json>, key: string): Json {
    LookupOr(fields, key, Null)
  }

  /** `d.get(key, default)`: only a dict has `get`; anything else raises AttributeError. */
  function DictGetOr(d: Json, key: string, default: Json): Result<Json> {
    match d
    case Obj(fields) => Ok(LookupOr(fields, key, default))
    case _ => Raised(AttributeError)
  }

  /** `d.get(key)` */
  function DictGet(d: Json, key: string): Result<Json> {
    DictGetOr(d, key, Null)
  }

  /**
   * The value reached from `d` by following `path` through nested dicts,
   * or `None` when some step is not a dict or lacks the key.
   */
  function At(d: Json, path: seq<string>): Option<Json>
    decreases |path|
  {
    if |path| == 0 then Some(d)
    else match d
      case Obj(fields) => if path[0] in fields then At(fields[path[0]], path[1..]) else None
      case _ => None
  }

  /**
   * `d[key]` with a string key: KeyError on a dict without it, TypeError on a
   * list, a string, a number, a bool or `None`.
   */
  function Subscript(d: Json, key: string): Result<Json> {
    match d
    case Obj(fields) => if key in fields then Ok(fields[key]) else Raised(KeyError)
    case _ => Raised(TypeError)
  }

  /** `data[0]` on a list: IndexError when the list is empty. */
  function First(items: seq<Json>): Result<Json> {
    if |items| == 0 then Raised(IndexError) else Ok(items[0])
  }

  /**
   * A value held in the product record. `Object` is a str, number, list or
   * dict taken from JSON or from page text; `Float` is the float that Target's
   * price is converted to, kept as the digits-and-dots text it was read from.
   */
  datatype Value = Object(obj: Json) | Float(lexeme: string)

  predicate IsNonZeroDigit(c: char) {
    '1' <= c <= '9'
  }

  /** Python truthiness of a stored value; a float is false exactly when it is zero. */
  predicate ValueTruthy(v: Value) {
    match v
    case Object(j) => Truthy(j)
    case Float(d) => exists i :: 0 <= i < |d| && IsNonZeroDigit(d[i])
  }

  /** A Python argument: `None` (from `Null`) means "not given" to `set_product`. */
  function Arg(j: Json): (r: Option<Value>)
    ensures r.None? <==> j.Null?
  {
    if j.Null? then None else Some(Object(j))
  }
}

=== FILE: record.dfy ===
/**
 * The product record `{name, image, price}` that a scrape accumulates, and
 * `set_product`, the only way the cascade writes to it.
 */
module Record {
  import opened Wrappers
  import opened PyValue

  /** `self.product`; a `None` field is one no strategy has filled. */
  datatype Product = Product(name: Option<Value>, image: Option<Value>, price: Option<Value>)

  /** The record as the scraper is constructed with it: every field `None`. */
  const Empty: Product := Product(None, None, None)

  /** Set-if-present for one field. */
  function Pick(current: Option<Value>, given: Option<Value>): Option<Value> {
    if given.Some? then given else current
  }

  /**
   * `set_product(name, image, price)`: a field is overwritten exactly when its
   * argument is not `None`; a `None` (or omitted) argument leaves it as it was.
   */
  function SetProduct(p: Product, name: Option<Value>, image: Option<Value>, price: Option<Value>): (r: Product)
    ensures name.Some? ==> r.name == name
    ensures name.None? ==> r.name == p.name
    ensures image.Some? ==> r.image == image
    ensures image.None? ==> r.image == p.image
    ensures price.Some? ==> r.price == price
    ensures price.None? ==> r.price == p.price
  {
    Product(Pick(p.name, name), Pick(p.image, image), Pick(p.price, price))
  }

  /** Repeating a `set_product` call changes nothing further. */
  lemma SetProductIdempotent(p: Product, name: Option<Value>, image: Option<Value>, price: Option<Value>)
    ensures SetProduct(SetProduct(p, name, image, price), name, image, price) == SetProduct(p, name, image, price)
  {
  }

  /** Two calls in a row act as one call whose arguments are the later ones where given. */
  lemma SetProductTwice(p: Product, n1: Option<Value>, i1: Option<Value>, p1: Option<Value>,
                        n2: Option<Value>, i2: Option<Value>, p2: Option<Value>)
    ensures SetProduct(SetProduct(p, n1, i1, p1), n2, i2, p2) == SetProduct(p, Pick(n1, n2), Pick(i1, i2), Pick(p1, p2))
  {
  }

  /** `q` keeps every field `p` has set: no step of the cascade clears a field. */
  predicate Keeps(p: Product, q: Product) {
    (p.name.Some? ==> q.name.Some?) && (p.image.Some? ==> q.image.Some?) && (p.price.Some? ==> q.price.Some?)
  }

  /** `set_product` never clears a field. */
  lemma SetProductKeeps(p: Product, name: Option<Value>, image: Option<Value>, price: Option<Value>)
    ensures Keeps(p, SetProduct(p, name, image, price))
  {
  }

  /** `any(self.product.values())`: some field holds a truthy value. */
  predicate AnyTruthy(p: Product) {
    || (p.name.Some? && ValueTruthy(p.name.value))
    || (p.image.Some? && ValueTruthy(p.image.value))
    || (p.price.Some? && ValueTruthy(p.price.value))
  }
}

=== FILE: scraper.dfy ===
/**
 * `Scraper.scrape_product` as a pure function: the fetched page is an input,
 * the parsed document is an abstract record of the parts the scraper looks
 * up, and the record is threaded through the cascade as a value.
 */
module Scraper {
  import opened Wrappers
  import opened PyStr
  import opened PyValue
  import opened Record
  import opened Patterns
  import opened Store

  // ---------------------------------------------------------------- the page

  /** The text of a `<script>` as `json.loads` sees it: valid JSON, or not (or no text at all). */
  datatype Embedded = Malformed | Parsed(value: Json)

  /** The `#landingImage` element, with its `data-a-dynamic-image` attribute if it has one. */
  datatype ImageTag = ImageTag(dynamicImage: Option<string>)

  /** The Amazon-specific elements of a page. */
  datatype AmazonParts = AmazonParts(
    // `get_text(strip=True)` of the `span.a-offscreen` inside `span#tp_price_block_total_price_ww`
    offscreenPrice: Option<string>,
    // the text of `#productTitle`
    productTitle: Option<string>,
    landingImage: Option<ImageTag>)

  /** The parts of a parsed product page that the scraper looks up. */
  datatype Page = Page(
    // the first `<script type="application/ld+json">`
    jsonLd: Option<Embedded>,
    // the text of the first `<h1>` and of `<title>`
    h1: Option<string>,
    title: Option<string>,
    // the `content` of `<meta property="og:image">`, when the tag has one
    ogImage: Option<string>,
    // the `.string` of every `<script>`, in document order
    scripts: seq<Option<string>>,
    // `<script id="__NEXT_DATA__">`
    nextData: Option<Embedded>,
    amazon: AmazonParts,
    // the text of the first element of class `price`, else of `span#price`
    priceTag: Option<string>)

  // ---------------------------------------------------------------- step 1: JSON-LD

  /** The `offers.price` of a JSON-LD item, read only when `offers` is a dict. */
  function OfferPrice(item: map<string, Json>): (r: Json)
    ensures r != Null ==> At(Obj(item), ["offers", "price"]) == Some(r)
    ensures At(Obj(item), ["offers", "price"]).Some? ==> r == At(Obj(item), ["offers", "price"]).value
  {
    if "offers" in item && item["offers"].Obj? then Lookup(item["offers"].fields, "price") else Null
  }

  /**
   * The `(name, image, price)` that `get_structured_data_product` reads from
   * the parsed JSON-LD, or the exception reading them raises: the first item
   * of a list (IndexError for an empty one), `get` on it (AttributeError
   * unless it is a dict), and `shorten_name` of its name (AttributeError
   * unless the name is a str).
   */
  function StructuredFields(data: Json): (r: Result<(string, Json, Json)>)
    ensures r.Raised? ==> r.error == AttributeError || r.error == IndexError
    ensures r == Raised(IndexError) <==> data == Arr([])
    ensures data.Arr? && |data.items| > 0 && !data.items[0].Arr? ==> r == StructuredFields(data.items[0])
    ensures data.Arr? && |data.items| > 0 && data.items[0].Arr? ==> r == Raised(AttributeError)
    ensures !data.Arr? && !data.Obj? ==> r == Raised(AttributeError)
    ensures data.Obj? && !Lookup(data.fields, "name").Str? ==> r == Raised(AttributeError)
    ensures data.Obj? && Lookup(data.fields, "name").Str? ==>
      r == Ok((ShortenName(Lookup(data.fields, "name").s), Lookup(data.fields, "image"), OfferPrice(data.fields)))
  {
    var item :- if data.Arr? then First(data.items) else Ok(data);
    match item
    case Obj(fields) =>
      var name :- PyShortenName(Lookup(fields, "name"));
      Ok((name, Lookup(fields, "image"), OfferPrice(fields)))
    case _ => Raised(AttributeError)
  }

  /** The exceptions the `except` clause of `get_structured_data_product` swallows. */
  predicate CaughtByStructuredData(e: PyError) {
    e == JsonDecodeError || e == KeyError || e == TypeError
  }

  /**
   * `get_structured_data_product()`: when the JSON-LD item yields a truthy
   * name, image or price, all three are passed to `set_product`; a missing or
   * malformed block changes nothing; an AttributeError or IndexError escapes.
   */
  function StructuredData(page: Page, p: Product): (r: Result<Product>)
    ensures page.jsonLd.None? || page.jsonLd == Some(Malformed) ==> r == Ok(p)
    ensures r.Raised? ==> page.jsonLd.Some? && page.jsonLd.value.Parsed?
                          && StructuredFields(page.jsonLd.value.value) == Raised(r.error)
    ensures r.Ok? ==> Keeps(p, r.value)
    ensures r.Ok? && r.value != p ==>
      && page.jsonLd.Some? && page.jsonLd.value.Parsed?
      && StructuredFields(page.jsonLd.value.value).Ok?
      && var f := StructuredFields(page.jsonLd.value.value).value;
      && (Truthy(Str(f.0)) || Truthy(f.1) || Truthy(f.2))
      && r.value == SetProduct(p, Some(Object(Str(f.0))), Arg(f.1), Arg(f.2))
    ensures page.jsonLd.Some? && page.jsonLd.value.Parsed? ==>
      var f := StructuredFields(page.jsonLd.value.value);
      && (f.Raised? ==> r == Raised(f.error))
      && (f.Ok? && (Truthy(Str(f.value.0)) || Truthy(f.value.1) || Truthy(f.value.2)) ==>
            r == Ok(SetProduct(p, Some(Object(Str(f.value.0))), Arg(f.value.1), Arg(f.value.2))))
      && (f.Ok? && !Truthy(Str(f.value.0)) && !Truthy(f.value.1) && !Truthy(f.value.2) ==> r == Ok(p))
  {
    match page.jsonLd
    case None => Ok(p)
    case Some(Malformed) => Ok(p)
    case Some(Parsed(data)) =>
      match StructuredFields(data)
      case Raised(e) => if CaughtByStructuredData(e) then Ok(p) else Raised(e)
      case Ok((name, image, price)) =>
        if Truthy(Str(name)) || Truthy(image) || Truthy(price) then
          Ok(SetProduct(p, Some(Object(Str(name))), Arg(image), Arg(price)))
        else Ok(p)
  }

  // ---------------------------------------------------------------- step 2: h1 / title / og:image

  /** `soup.find("h1") or soup.find("title")`: a found tag is truthy even when empty. */
  function NameTagText(page: Page): (r: Option<string>)
    ensures r.Some? <==> page.h1.Some? || page.title.Some?
    ensures page.h1.Some? ==> r == page.h1
    ensures page.h1.None? ==> r == page.title
  {
    if page.h1.Some? then page.h1 else page.title
  }

  /**
   * `generalized_scrape_attempt()`: fills `name` from the heading or title and
   * `image` from a non-empty og:image, each only while that field is `None`;
   * it never overwrites a field and never touches `price`.
   */
  function GeneralizedScrapeAttempt(page: Page, p: Product): (r: Product)
    ensures r.price == p.price
    ensures p.name.Some? ==> r.name == p.name
    ensures p.image.Some? ==> r.image == p.image
    ensures p.name.None? && page.h1.Some? ==> r.name == Some(Object(Str(ShortenName(Strip(page.h1.value)))))
    ensures p.name.None? && page.h1.None? && page.title.Some? ==>
      r.name == Some(Object(Str(ShortenName(Strip(page.title.value)))))
    ensures p.name.None? && page.h1.None? && page.title.None? ==> r.name.None?
    ensures p.image.None? && page.ogImage.Some? && page.ogImage.value != "" ==>
      r.image == Some(Object(Str(page.ogImage.value)))
    ensures p.image.None? && (page.ogImage.None? || page.ogImage.value == "") ==> r.image.None?
  {
    var named :=
      if p.name.None? && NameTagText(page).Some? then
        SetProduct(p, Some(Object(Str(ShortenName(Strip(NameTagText(page).value))))), None, None)
      else p;
    if named.image.None? && page.ogImage.Some? && page.ogImage.value != "" then
      SetProduct(named, None, Some(Object(Str(page.ogImage.value))), None)
    else named
  }

  // ---------------------------------------------------------------- step 3a: Target

  /** `script.string or ""` */
  function ScriptText(s: Option<string>): string {
    s.GetOr("")
  }

  /**
   * `scrape_target()`: for each script in turn, pass its extracted price (if
   * any) to `set_product`, and stop once the record's price is set. A
   * ValueError from `float()` escapes.
   */
  function ScrapeTarget(scripts: seq<Option<string>>, p: Product): (r: Result<Product>)
    ensures r.Ok? ==> r.value.name == p.name && r.value.image == p.image
    ensures r.Ok? ==> Keeps(p, r.value)
    ensures r.Raised? ==> r.error == ValueError
    decreases |scripts|
  {
    if |scripts| == 0 then Ok(p)
    else
      var found :- ExtractTargetPriceFromScript(ScriptText(scripts[0]));
      var next := SetProduct(p, None, None, found);
      if next.price.Some? then Ok(next) else ScrapeTarget(scripts[1..], next)
  }

  // ---------------------------------------------------------------- step 3b: Walmart

  /** The three values `scrape_walmart` reads from the product object. */
  datatype WalmartFields = WalmartFields(name: Json, price: Json, image: Json)

  /**
   * The `try` body of `scrape_walmart`: walk `props.pageProps.initialData.data.product`
   * and read `name`, `priceInfo.currentPrice.price` and `imageInfo.thumbnailUrl`
   * (`get` with `{}` defaults, so a missing key gives `None` but a present
   * non-dict raises).
   */
  function WalmartProduct(data: Json): (r: Result<WalmartFields>)
    ensures r.Ok? ==> At(data, ProductKeys).Some? && r == ProductFields(At(data, ProductKeys).value)
    ensures At(data, ProductKeys).Some? ==> r == ProductFields(At(data, ProductKeys).value)
    ensures At(data, ProductKeys).None? ==> r.Raised? && (r.error == KeyError || r.error == TypeError)
  {
    var product :- SubscriptPath(data, ProductKeys);
    ProductFields(product)
  }

  /** The keys `scrape_walmart` walks down to the product object. */
  const ProductKeys: seq<string> := ["props", "pageProps", "initialData", "data", "product"]

  /**
   * `data[k0][k1]...`: subscripting key after key. It succeeds exactly when
   * every step is a dict holding the key, and then reaches the value at that
   * path; otherwise it raises KeyError (a dict without the key) or TypeError
   * (not a dict).
   */
  function SubscriptPath(data: Json, path: seq<string>): (r: Result<Json>)
    ensures r.Ok? <==> At(data, path).Some?
    ensures r.Ok? ==> r.value == At(data, path).value
    ensures r.Raised? ==> r.error == KeyError || r.error == TypeError
    decreases |path|
  {
    if |path| == 0 then Ok(data)
    else
      var next :- Subscript(data, path[0]);
      SubscriptPath(next, path[1..])
  }

  /** Where `scrape_walmart` reads the price and the image inside the product object. */
  const PricePath: seq<string> := ["priceInfo", "currentPrice", "price"]
  const ImagePath: seq<string> := ["imageInfo", "thumbnailUrl"]

  /** `fields.get(key, {})` has a `get` of its own: the key is absent or holds a dict. */
  predicate GetsDict(fields: map<string, Json>, key: string) {
    key !in fields || fields[key].Obj?
  }

  /**
   * No `get` in the chains on a dict product raises: `priceInfo`, the
   * `currentPrice` inside it and `imageInfo` are each absent or a dict.
   */
  predicate ProductReadable(fields: map<string, Json>) {
    && GetsDict(fields, "priceInfo")
    && ("priceInfo" in fields ==> GetsDict(fields["priceInfo"].fields, "currentPrice"))
    && GetsDict(fields, "imageInfo")
  }

  /**
   * The three `get` chains on the product object: `name`, then
   * `priceInfo.currentPrice.price` and `imageInfo.thumbnailUrl`, where a
   * missing `priceInfo`, `currentPrice` or `imageInfo` counts as `{}` and a
   * present one that is not a dict raises AttributeError.
   */
  function ProductFields(product: Json): (r: Result<WalmartFields>)
    ensures !product.Obj? ==> r == Raised(AttributeError)
    ensures r.Raised? ==> r.error == AttributeError
    ensures r.Ok? ==> product.Obj? && r.value.name == Lookup(product.fields, "name")
    ensures r.Ok? && r.value.price != Null ==> At(product, ["priceInfo", "currentPrice", "price"]) == Some(r.value.price)
    ensures r.Ok? && r.value.image != Null ==> At(product, ["imageInfo", "thumbnailUrl"]) == Some(r.value.image)
    ensures At(product, ["priceInfo", "currentPrice", "price"]).Some? && At(product, ["imageInfo", "thumbnailUrl"]).Some? ==>
      r == Ok(WalmartFields(Lookup(product.fields, "name"),
                            At(product, ["priceInfo", "currentPrice", "price"]).value,
                            At(product, ["imageInfo", "thumbnailUrl"]).value))
    ensures product.Obj? && "priceInfo" !in product.fields && "imageInfo" !in product.fields ==>
      r == Ok(WalmartFields(Lookup(product.fields, "name"), Null, Null))
    ensures product.Obj? ==> (r.Ok? <==> ProductReadable(product.fields))
    ensures r.Ok? ==> r.value.price == At(product, PricePath).GetOr(Null)
    ensures r.Ok? ==> r.value.image == At(product, ImagePath).GetOr(Null)
  {
    match product
    case Obj(fields) =>
      var priceInfo := LookupOr(fields, "priceInfo", Obj(map[]));
      var currentPrice :- DictGetOr(priceInfo, "currentPrice", Obj(map[]));
      var price :- DictGet(currentPrice, "price");
      var imageInfo := LookupOr(fields, "imageInfo", Obj(map[]));
      var image :- DictGet(imageInfo, "thumbnailUrl");
      Ok(WalmartFields(Lookup(fields, "name"), price, image))
    case _ => Raised(AttributeError)
  }

  /**
   * `scrape_walmart()`: its return value (`None`, or the three fields) and the
   * record after it. A missing `__NEXT_DATA__` script returns `None`; malformed
   * JSON raises from `json.loads`, which sits outside the `try`; any exception
   * inside the `try` is swallowed and returns `None`.
   */
  function ScrapeWalmart(nextData: Option<Embedded>, p: Product): (r: Result<(Option<WalmartFields>, Product)>)
    ensures nextData.None? ==> r == Ok((None, p))
    ensures r.Raised? <==> nextData == Some(Malformed)
    ensures r.Raised? ==> r.error == JsonDecodeError
    ensures r.Ok? && r.value.0.None? ==> r.value.1 == p
    ensures r.Ok? && r.value.0.Some? ==>
      var f := r.value.0.value;
      r.value.1 == SetProduct(p, Arg(f.name), Arg(f.image), Arg(f.price))
    ensures nextData.Some? && nextData.value.Parsed? ==>
      var w := WalmartProduct(nextData.value.value);
      r.Ok? && r.value.0 == (if w.Ok? then Some(w.value) else None)
  {
    match nextData
    case None => Ok((None, p))
    case Some(Malformed) => Raised(JsonDecodeError)
    case Some(Parsed(data)) =>
      match WalmartProduct(data)
      case Raised(_) => Ok((None, p))
      case Ok(f) => Ok((Some(f), SetProduct(p, Arg(f.name), Arg(f.image), Arg(f.price))))
  }

  /**
   * The `walmart` branch of `scrape_product`: `product.get('name')` on what
   * `scrape_walmart` returned (AttributeError when that is `None`), then
   * `shorten_name` of it (AttributeError unless a str). The locals it computes
   * are discarded; the record is what `scrape_walmart` left.
   */
  function WalmartBranch(page: Page, p: Product): (r: Result<Product>)
    ensures page.nextData.None? ==> r == Raised(AttributeError)
    ensures page.nextData == Some(Malformed) ==> r == Raised(JsonDecodeError)
    ensures r.Ok? ==>
      && page.nextData.Some? && page.nextData.value.Parsed?
      && WalmartProduct(page.nextData.value.value).Ok?
      && var f := WalmartProduct(page.nextData.value.value).value;
      && f.name.Str?
      && r.value == SetProduct(p, Some(Object(f.name)), Arg(f.image), Arg(f.price))
    ensures page.nextData.Some? && page.nextData.value.Parsed? ==>
      var w := WalmartProduct(page.nextData.value.value);
      && (w.Raised? ==> r == Raised(AttributeError))
      && (w.Ok? && !w.value.name.Str? ==> r == Raised(AttributeError))
      && (w.Ok? && w.value.name.Str? ==> r == Ok(SetProduct(p, Some(Object(w.value.name)), Arg(w.value.image), Arg(w.value.price))))
  {
    var walmart :- ScrapeWalmart(page.nextData, p);
    match walmart.0
    case None => Raised(AttributeError)
    case Some(f) =>
      var _ :- PyShortenName(f.name);
      Ok(walmart.1)
  }

  // ---------------------------------------------------------------- step 3c: Amazon and other stores

  /** The locals the `amazon` branch of `scrape_product` computes. */
  datatype AmazonFindings = AmazonFindings(price: Option<string>, name: Option<string>, image: Option<Option<string>>)

  /**
   * `scrape_amazon()` and the rest of the `amazon` branch: the offscreen price
   * with '$' removed, the stripped product title, and the first media URL of
   * the landing image. None of these is written to the record.
   */
  function AmazonLocals(parts: AmazonParts): (r: AmazonFindings)
    ensures r.price.Some? ==> '$' !in r.price.value
    ensures r.price.None? <==> parts.offscreenPrice.None?
    ensures parts.offscreenPrice == Some("") ==> r.price == Some("")
    ensures parts.offscreenPrice.Some? && parts.offscreenPrice.value != "" ==>
      r.price == Some(RemoveChar(parts.offscreenPrice.value, '$'))
    ensures r.name.None? <==> parts.productTitle.None?
    ensures parts.productTitle.Some? ==> r.name.Some? && IsStripOf(parts.productTitle.value, r.name.value)
    ensures r.image.None? <==> parts.landingImage.None?
    ensures parts.landingImage.Some? ==> r.image == Some(ExtractAmazonImage(parts.landingImage.value.dynamicImage))
    ensures r.image.Some? && r.image.value.Some? ==> StartsWith(r.image.value.value, MediaPrefix)
  {
    var price := parts.offscreenPrice;
    var price := if price.Some? && price.value != "" then Some(RemoveChar(price.value, '$')) else price;
    var name := if parts.productTitle.Some? then Some(Strip(parts.productTitle.value)) else None;
    var image := if parts.landingImage.Some? then Some(ExtractAmazonImage(parts.landingImage.value.dynamicImage)) else None;
    AmazonFindings(price, name, image)
  }

  /** The branch for unrecognised stores: the stripped text of the first price-like element, into a local only. */
  function GenericPriceLocal(page: Page): (r: Option<string>)
    ensures r.None? <==> page.priceTag.None?
    ensures page.priceTag.Some? ==> r.Some? && IsStripOf(page.priceTag.value, r.value)
  {
    if page.priceTag.Some? then Some(Strip(page.priceTag.value)) else None
  }

  /** The per-store dispatch of `scrape_product`. */
  function StoreStep(store: StoreId, page: Page, p: Product): (r: Result<Product>)
    ensures store == Amazon || store == Unknown ==> r == Ok(p)
    ensures store == Target ==> r == ScrapeTarget(page.scripts, p)
    ensures store == Walmart ==> r == WalmartBranch(page, p)
    ensures r.Ok? ==> Keeps(p, r.value)
    ensures store != Walmart && r.Ok? ==> r.value.name == p.name && r.value.image == p.image
    ensures r.Raised? ==>
      || (store == Target && r.error == ValueError)
      || (store == Walmart && (r.error == AttributeError || r.error == JsonDecodeError))
  {
    match store
    case Target => ScrapeTarget(page.scripts, p)
    case Walmart => WalmartBranch(page, p)
    // `AmazonLocals(page.amazon)` and `GenericPriceLocal(page)` are computed into locals only
    case Amazon => Ok(p)
    case Unknown => Ok(p)
  }

  // ---------------------------------------------------------------- the whole scrape

  /** The record after every step of the cascade on a fetched page, or the exception that escaped. */
  function Cascade(url: string, page: Page): (r: Result<Product>)
    ensures StructuredData(page, Empty).Raised? ==> r == Raised(StructuredData(page, Empty).error)
    ensures r.Raised? ==> r.error in {AttributeError, IndexError, ValueError, JsonDecodeError}
    ensures r == Raised(ValueError) ==> GetStore(url) == Target
    ensures r == Raised(JsonDecodeError) ==> GetStore(url) == Walmart
    ensures r.Ok? ==> StructuredData(page, Empty).Ok? && Keeps(StructuredData(page, Empty).value, r.value)
  {
    var structured :- StructuredData(page, Empty);
    StoreStep(GetStore(url), page, GeneralizedScrapeAttempt(page, structured))
  }

  /**
   * `scrape_product()`: `None` when the fetch failed (`fetched` is `None`);
   * otherwise the record after the cascade, or `None` when no field of it is
   * truthy; an exception that escapes the cascade escapes this too.
   */
  function ScrapeProduct(url: string, fetched: Option<Page>): (r: Result<Option<Product>>)
    ensures fetched.None? ==> r == Ok(None)
    ensures r.Ok? && r.value.Some? ==> AnyTruthy(r.value.value)
    ensures fetched.Some? ==>
      (r == Ok(None) <==> Cascade(url, fetched.value).Ok? && !AnyTruthy(Cascade(url, fetched.value).value))
    ensures fetched.Some? && r.Ok? && r.value.Some? ==> Cascade(url, fetched.value) == Ok(r.value.value)
    ensures fetched.Some? ==> (r.Raised? <==> Cascade(url, fetched.value).Raised?)
    ensures fetched.Some? && Cascade(url, fetched.value).Raised? ==> r == Raised(Cascade(url, fetched.value).error)
  {
    match fetched
    case None => Ok(None)
    case Some(page) =>
      var product :- Cascade(url, page);
      if AnyTruthy(product) then Ok(Some(product)) else Ok(None)
  }
}

=== FILE: store.dfy ===
/** `get_store`: which of the three special-cased retailers a URL belongs to. */
module Store {
  import opened PyStr
  import UrlParse

  /** The store names `get_store` can return; `Unknown` is its `None`. */
  datatype StoreId = Amazon | Walmart | Target | Unknown

  /** The name `get_store` returns for a known store. */
  function Token(s: StoreId): string
    requires s != Unknown
  {
    match s
    case Amazon => "amazon"
    case Walmart => "walmart"
    case Target => "target"
  }

  /** The host's first '.'-separated label is exactly `t`. */
  predicate LabelIs(host: string, t: string) {
    host == t || StartsWith(host, t + ".")
  }

  /**
   * The host names the store labelled `t`: its first label is `t`, or it starts
   * with one "www." and the label right after that is `t`.
   */
  predicate Denotes(host: string, t: string) {
    LabelIs(host, t) || (StartsWith(host, "www.") && LabelIs(host[4..], t))
  }

  /**
   * The store named by an already lower-cased netloc: drop one leading "www.",
   * keep what comes before the first '.', and look that up among the three names.
   */
  function StoreOfHost(host: string): (r: StoreId)
    ensures r == Amazon <==> Denotes(host, "amazon")
    ensures r == Walmart <==> Denotes(host, "walmart")
    ensures r == Target <==> Denotes(host, "target")
  {
    var bare := if StartsWith(host, "www.") then host[4..] else host;
    var first := Split(bare, '.')[0];
    StoreLabelFacts(host, bare, "amazon");
    StoreLabelFacts(host, bare, "walmart");
    StoreLabelFacts(host, bare, "target");
    if first == "amazon" then Amazon
    else if first == "walmart" then Walmart
    else if first == "target" then Target
    else Unknown
  }

  /** `get_store()` on the scraper's URL. */
  function GetStore(url: string): (r: StoreId)
    ensures var host := Lower(UrlParse.Netloc(url));
      && (r != Unknown ==> Denotes(host, Token(r)))
      && (r == Unknown <==> !Denotes(host, "amazon") && !Denotes(host, "walmart") && !Denotes(host, "target"))
  {
    StoreOfHost(Lower(UrlParse.Netloc(url)))
  }

  /** The first piece of `split(".")` is `t` exactly when `t` is the first label. */
  lemma FirstLabel(h: string, t: string)
    requires '.' !in t
    ensures Split(h, '.')[0] == t <==> LabelIs(h, t)
  {
    var parts := Split(h, '.');
    assert '.' !in parts[0];
    PieceIsLabel(h, parts[0], t);
  }

  /**
   * A prefix `f` of `h` that holds no '.' and ends where `h` does or at a '.'
   * is `h`'s first label: it equals a '.'-free `t` exactly when `LabelIs(h, t)`.
   */
  lemma PieceIsLabel(h: string, f: string, t: string)
    requires '.' !in f && StartsWith(h, f) && (|f| == |h| || h[|f|] == '.')
    requires '.' !in t
    ensures f == t <==> LabelIs(h, t)
  {
    if f == t {
      if |f| == |h| {
        assert h[..|h|] == h;
      } else {
        assert h[..|t| + 1] == t + ".";
      }
    }
    if LabelIs(h, t) {
      assert |t| == |h| || h[|t|] == '.' by {
        if h != t {
          assert (t + ".")[|t|] == '.';
        }
      }
      assert StartsWith(h, t) by {
        if h != t {
          assert h[..|t|] == h[..|t| + 1][..|t|];
        }
      }
      assert forall k :: 0 <= k < |t| ==> h[k] == t[k] && t[k] != '.';
      assert forall k :: 0 <= k < |f| ==> h[k] == f[k] && f[k] != '.';
      assert |f| == |t|;
    }
  }

  /** Two texts that differ at some position shared by both are not one the label of the other. */
  lemma Mismatch(h: string, t: string, k: nat)
    requires k < |h| && k < |t| && h[k] != t[k]
    ensures !LabelIs(h, t)
  {
    if |t| + 1 <= |h| {
      assert h[..|t| + 1][k] != (t + ".")[k];
    }
  }

  /** A host starting with "www." has "www" as its first label, which names no store. */
  lemma WwwLabel(host: string, t: string)
    requires StartsWith(host, "www.")
    requires '.' !in t && t != "www"
    ensures !LabelIs(host, t)
  {
    assert host[3] == '.';
    assert '.' in host;
    var n := |t|;
    if n + 1 <= |host| {
      var head := host[..n + 1];
      if n >= 4 {
        assert t[3] in t;
        assert (t + ".")[3] != head[3];
      } else if n == 3 {
        assert (t + ".")[..3] == t;
        assert head[..3] == "www";
      } else {
        assert (t + ".")[n] == '.';
        assert head[n] == 'w';
      }
    }
  }

  lemma StoreLabelFacts(host: string, bare: string, t: string)
    requires bare == if StartsWith(host, "www.") then host[4..] else host
    requires '.' !in t && t != "www"
    ensures Split(bare, '.')[0] == t <==> Denotes(host, t)
  {
    FirstLabel(bare, t);
    if StartsWith(host, "www.") {
      WwwLabel(host, t);
    }
  }

  /** Only exactly one "www." is dropped, so a doubled prefix names no store. */
  lemma DoubleWwwIsUnknown()
    ensures StoreOfHost("www.www.amazon.com") == Unknown
  {
    var h := "www.www.amazon.com";
    assert h[..4] == "www.";
    var bare := h[4..];
    assert bare == "www.amazon.com";
    Mismatch(h, "amazon", 0);
    Mismatch(h, "walmart", 1);
    Mismatch(h, "target", 0);
    Mismatch(bare, "amazon", 0);
    Mismatch(bare, "walmart", 1);
    Mismatch(bare, "target", 0);
  }

  /** A sub-domain or country variant does not reduce to the bare store label. */
  lemma SubdomainIsUnknown()
    ensures StoreOfHost("smile.amazon.co.uk") == Unknown
  {
    var h := "smile.amazon.co.uk";
    assert h[0] != 'w';
    Mismatch(h, "amazon", 0);
    Mismatch(h, "walmart", 0);
    Mismatch(h, "target", 0);
    NamesNoStore(h);
  }

  /** A host that denotes none of the three stores is `Unknown`. */
  lemma NamesNoStore(host: string)
    requires !Denotes(host, "amazon") && !Denotes(host, "walmart") && !Denotes(host, "target")
    ensures StoreOfHost(host) == Unknown
  {
  }

  /**
   * `get_store` on a URL built as `scheme://host` followed by a path is the
   * store its lower-cased host names.
   */
  lemma StoreOfBuiltUrl(scheme: string, host: string, tail: string)
    requires |scheme| > 0 && UrlParse.IsAsciiLetter(scheme[0])
    requires forall k :: 0 <= k < |scheme| ==> UrlParse.IsSchemeChar(scheme[k])
    requires forall k :: 0 <= k < |host| ==> !UrlParse.IsNetlocDelimiter(host[k])
    requires tail == [] || UrlParse.IsNetlocDelimiter(tail[0])
    ensures GetStore(scheme + "://" + host + tail) == StoreOfHost(Lower(host))
  {
    UrlParse.NetlocOfBuiltUrl(scheme, host, tail);
  }

  /** Lower-casing a mixed-case Amazon host. */
  lemma LowerAmazonHost()
    ensures Lower("WWW.Amazon.com") == "www.amazon.com"
  {
  }

  /** Amazon's main host, with its "www.", names Amazon. */
  lemma AmazonHost()
    ensures StoreOfHost("www.amazon.com") == Amazon
  {
    var h := "www.amazon.com";
    assert h[..4] == "www.";
    assert h[4..][..7] == "amazon.";
  }

  /** A product URL on Amazon's main host, in upper or lower case, is an Amazon URL. */
  lemma AmazonProductUrl()
    ensures GetStore("https://WWW.Amazon.com/dp/B0") == Amazon
  {
    var host := "WWW.Amazon.com";
    assert "https://WWW.Amazon.com/dp/B0" == "https" + "://" + host + "/dp/B0";
    StoreOfBuiltUrl("https", host, "/dp/B0");
    LowerAmazonHost();
    AmazonHost();
  }
}

=== FILE: urlparse.dfy ===
/**
 * The part of Python's `urllib.parse.urlparse` that `get_store` uses: the
 * network location (`netloc`) of a URL.
 */
module UrlParse {
  import opened Wrappers
  import opened PyStr

  predicate IsAsciiLetter(c: char) {
    ('a' <= c <= 'z') || ('A' <= c <= 'Z')
  }

  /** The characters `urllib.parse` allows in a scheme. */
  predicate IsSchemeChar(c: char) {
    IsAsciiLetter(c) || ('0' <= c <= '9') || c == '+' || c == '-' || c == '.'
  }

  predicate IsNetlocDelimiter(c: char) {
    c == '/' || c == '?' || c == '#'
  }

  /**
   * The URL with its scheme removed: the text before the first ':' is a scheme
   * when it is non-empty, starts with an ASCII letter and holds only scheme
   * characters; otherwise the URL is kept whole.
   */
  function AfterScheme(url: string): string {
    match Find(url, ':')
    case None => url
    case Some(i) =>
      if i > 0 && IsAsciiLetter(url[0]) && forall k :: 0 <= k < i ==> IsSchemeChar(url[k])
      then url[i + 1..]
      else url
  }

  /** The text before the first '/', '?' or '#'. */
  function UpToDelimiter(s: string): (r: string)
    ensures StartsWith(s, r)
    ensures forall k :: 0 <= k < |r| ==> !IsNetlocDelimiter(r[k])
    ensures |r| == |s| || IsNetlocDelimiter(s[|r|])
    decreases |s|
  {
    if |s| == 0 || IsNetlocDelimiter(s[0]) then ""
    else [s[0]] + UpToDelimiter(s[1..])
  }

  /**
   * `urlparse(url).netloc`: after the scheme, when the rest starts with "//",
   * the text up to the next '/', '?' or '#'; otherwise empty.
   */
  function Netloc(url: string): (r: string)
    ensures forall k :: 0 <= k < |r| ==> !IsNetlocDelimiter(r[k])
  {
    var rest := AfterScheme(url);
    if StartsWith(rest, "//") then UpToDelimiter(rest[2..]) else ""
  }

  /**
   * Reading the netloc back out of a URL built as `scheme://host` followed by a
   * path, query or fragment gives the host back.
   */
  lemma NetlocOfBuiltUrl(scheme: string, host: string, tail: string)
    requires |scheme| > 0 && IsAsciiLetter(scheme[0])
    requires forall k :: 0 <= k < |scheme| ==> IsSchemeChar(scheme[k])
    requires forall k :: 0 <= k < |host| ==> !IsNetlocDelimiter(host[k])
    requires tail == [] || IsNetlocDelimiter(tail[0])
    ensures Netloc(scheme + "://" + host + tail) == host
  {
    var url := scheme + "://" + host + tail;
    var rest := "//" + (host + tail);
    assert url == scheme + [':'] + rest by {
      assert "://" == [':'] + "//";
    }
    AfterSchemeOf(scheme, rest);
    NetlocOfSlashes(url, host + tail);
    UpToDelimiterOfHost(host, tail);
  }

  /** When the rest after the scheme is "//" + x, the netloc is read from x. */
  lemma NetlocOfSlashes(url: string, x: string)
    requires AfterScheme(url) == "//" + x
    ensures Netloc(url) == UpToDelimiter(x)
  {
    assert ("//" + x)[2..] == x;
  }

  /** A valid scheme followed by ':' is removed whole. */
  lemma AfterSchemeOf(scheme: string, rest: string)
    requires |scheme| > 0 && IsAsciiLetter(scheme[0])
    requires forall k :: 0 <= k < |scheme| ==> IsSchemeChar(scheme[k])
    ensures AfterScheme(scheme + [':'] + rest) == rest
  {
    var url := scheme + [':'] + rest;
    assert ':' !in scheme by {
      forall k | 0 <= k < |scheme| ensures scheme[k] != ':' {
        assert IsSchemeChar(scheme[k]);
      }
    }
    FindAfterPrefix(scheme, ':', rest);
    assert forall k :: 0 <= k < |scheme| ==> url[k] == scheme[k];
    assert url[|scheme| + 1..] == rest;
  }

  lemma {:induction false} UpToDelimiterOfHost(host: string, tail: string)
    requires forall k :: 0 <= k < |host| ==> !IsNetlocDelimiter(host[k])
    requires tail == [] || IsNetlocDelimiter(tail[0])
    ensures UpToDelimiter(host + tail) == host
    decreases |host|
  {
    if |host| == 0 {
      assert host + tail == tail;
    } else {
      assert (host + tail)[1..] == host[1..] + tail;
      UpToDelimiterOfHost(host[1..], tail);
      assert host == [host[0]] + host[1..];
    }
  }
}

=== FILE: wrappers.dfy ===
/** The optional-value datatype used throughout the model for Python's `None`. */
module Wrappers {

  /** `None` stands for Python's `None`; `Some(v)` for a present value. */
  datatype Option<+T> = None | Some(value: T) {

    /** Returns the value, or `default` when there is none (`x or default` for a str). */
    function GetOr(default: T): T {
      match this
      case Some(v) => v
      case None => default
    }
  }
}
